=== FILE: README.md ===
# Chapter-version workflow, modelled in Dafny

This project models the core of a small content-rewriting workflow. A book
chapter is scraped from the web, or read from a file cache. It is stored as
version 0 in a document collection. An interactive loop then lets a human run
"spin cycles":

- a language-model writer rewrites the current text;
- the draft is saved as `ai_draft` under the next version number;
- a language-model reviewer critiques it;
- the human approves it, retries, or gives creative direction for a refinement.

The model covers four source files:

- `database.py`: the version store, modelled as `VersionStore.Collection`. It is a class over the sequence of stored records, in the order the collection's `get` returns them. `save_version` is an upsert under the id `chapter_id + "_v" + version`. `get_latest_version_info` is a loop scanning for the highest version. `inspect_all_versions` builds the rows of the version table and sorts them by version.
- `search.py`: `find_final_version` and `semantic_search_versions`, as functions of the stored records. The similarity engine is an oracle parameter (`Search.Ranking`).
- `utils/cache_handler.py`: the URL-to-file-name sanitiser as a pure function. The cache directory is `UrlCache.Cache`, a class whose field maps file names to contents.
- `main.py`:
  - `handle_spin_cycle` is `Workflow.HandleSpinCycle`. It is specified by two functions: `CycleWrites`, for what is stored, and `CycleState`, for the state returned.
  - The command loop of `main` is `Workflow.CommandLoop`. It is specified by the recursive function `Workflow.Session`.
  - The start-up of `main` is `Workflow.RunSession`.

These parts are parameters of the model:

- Console input. Each loop turn is a `Workflow.Step` carrying the command line and the two answers a spin cycle reads.
- The three language-model agents. They are arbitrary string functions carried per step, because two calls with the same prompt may answer differently.
- The scraper's result.
- Whether each store or cache operation fails. Every operation that catches an exception takes a `fails` flag, and its error path is modelled.

Behaviour the proofs bring out:

- A retried ("discarded") draft stays stored. It is what `get_latest_version_info` reports (`Workflow.LatestAfterCycle`) until the next spin overwrites it (`Workflow.RetriedDraftIsOverwritten`).
- A refined text is returned as the current text but is never stored (`Workflow.RefinedTextNotStored`).
- `find_final_version` takes the first approved record in collection order, with `limit=1`. Once a chapter has an approval, approving a later version does not change what it returns (`Workflow.LaterApprovalIsShadowed`).
- The scraper's placeholder `---NO_HTML_CONTENT---` does not contain "FAILED". So start-up accepts it, caches it and saves it as the original (`Workflow.NoHtmlPlaceholderAccepted`).
- When the start-up read of the latest version fails, the session starts at version -1. Its first draft is then saved as version 0 and replaces the original text (`Workflow.FailedStartReadOverwritesOriginal`).
- Two different URLs can share one cache file, because a forbidden character and an underscore sanitise alike (`UrlCache.DistinctUrlsShareFile`).
- There is no decision beyond approve and retry. Any other answer is creative direction for a refinement, and that includes the empty answer (`Workflow.DecideEmpty`).
- The cache is read in text mode, so a cached page comes back with `"\r\n"` and a lone `"\r"` turned into `"\n"` (`UrlCache.ReadTextCrLf`, `UrlCache.ReadTextLoneCr`).

## Model

| member | source | states |
|---|---|---|
| Common.Contains | main.py:86 | `sub in s` holds exactly when `sub` occurs at some position of `s` |
| Common.Strip | main.py:33 | `str.strip()`: the result is a slice of the input, everything around it is whitespace, and its ends are not whitespace |
| Common.StripSurrounded | main.py:36 | stripping removes exactly the whitespace around a word |
| Common.TrimStartSpaces | main.py:33 | leading whitespace before a non-space character is exactly what the left trim drops |
| Common.TrimEndSpaces | main.py:33 | trailing whitespace after a non-space character is exactly what the right trim drops |
| Common.Lower | main.py:36 | `str.lower()`: same length, each upper-case letter becomes its lower-case letter, every other character unchanged |
| Common.NatToString | database.py:22 | the canonical decimal digits of a natural number: one digit exactly below ten, and no leading '0' except for 0 itself |
| Common.IntToString | database.py:22 | the canonical decimal rendering of an int: digits with a leading '-' exactly for negatives, no '-' after the first character, and no leading '0' (only 0 renders as "0", and a '-' is never followed by '0') |
| Common.NatToStringValue | database.py:22 | the digits written for a natural number denote that number in base ten |
| Common.IntToStringValue | database.py:22 | the rendering of an int denotes its value: the digits themselves for a non-negative, '-' followed by the digits of its magnitude for a negative |
| Common.IntToStringInjective | database.py:22 | distinct integers render to distinct decimal strings |
| VersionStore.NewRecord | database.py:22-34 | the record saved carries the given chapter, version, status and text under the id derived from chapter and version |
| VersionStore.DocIdSplit | database.py:22 | a document id is the chapter id, an underscore, then "v" and the version, and it splits back at its last underscore |
| VersionStore.DocIdInjective | database.py:21-22 | distinct (chapter id, version) pairs get distinct document ids |
| VersionStore.Upsert | database.py:27-35 | an existing id is replaced in place and the length is unchanged; a new id is appended; every other record stays where it was |
| VersionStore.UpsertWellFormed | database.py:27-35 | upserts keep ids derived from metadata and unique, and leave the saved record as the only one with its id |
| VersionStore.ChapterRecords | database.py:44 | the chapter filter keeps exactly the chapter's records, in order; it is empty exactly when the chapter has none |
| VersionStore.ChapterRecordsAppend | database.py:44 | filtering distributes over concatenation |
| VersionStore.ChapterVersionsDistinct | database.py:22-35 | in a store written by saves, a chapter's records carry pairwise distinct versions |
| VersionStore.UpsertOtherChapter | database.py:27-44 | saving a record of another chapter leaves this chapter's records unchanged |
| VersionStore.ScanLatest | database.py:50-55 | the scan with strict `>` never ends below where it started, and keeps its starting text when nothing exceeds the starting version |
| VersionStore.LatestVersionInfo | database.py:43-57 | `None` exactly when the chapter has no records, and then version -1; the version is never below -1 |
| VersionStore.ScanLatestSpec | database.py:50-55 | the scan with strict `>` ends at the maximum version, held first by the record whose text it keeps |
| VersionStore.LatestIsMaximum | database.py:43-57 | `(None, -1)` exactly when the chapter has no records; otherwise the maximum version with the text of its first holder, or `("", -1)` when every version is -1 or below |
| VersionStore.ScanLatestAppend | database.py:52-55 | scanning a concatenation continues from the scan of its first part |
| VersionStore.SaveThenLatest | database.py:17-57 | after saving a version above every stored version of its chapter, the latest version info is that version and text |
| VersionStore.LatestIgnoresOtherChapters | database.py:27-57 | saving a record of another chapter never changes the latest version info |
| VersionStore.Snippet | database.py:83 | the first 100 characters of the text followed by "..." |
| VersionStore.RowsOf | database.py:79-84 | one row per record, in order, with id, version, status and snippet |
| VersionStore.InsertByVersion | database.py:89-90 | inserting into sorted rows keeps them sorted and adds exactly that row |
| VersionStore.SortByVersion | database.py:89-90 | the table sort is ascending by version and a permutation of its rows |
| VersionStore.SortByVersionStrict | database.py:89-90 | rows with pairwise distinct versions sort to strictly ascending versions |
| VersionStore.VersionTableStrict | database.py:63-90 | in a store written by saves, the sorted table lists each version of the chapter once, strictly ascending |
| VersionStore.Collection.constructor | database.py:11-15 | the collection reopened with the records earlier runs stored; a fresh database gives an empty, well-formed collection |
| VersionStore.Collection.SaveVersion | database.py:17-37 | the store becomes the upsert of the new record; a failed save leaves it unchanged; well-formedness is kept |
| VersionStore.Collection.GetLatestVersionInfo | database.py:39-60 | the loop returns the latest version info of the chapter; a failed `get` returns `(None, -1)` |
| VersionStore.Collection.InspectAllVersions | database.py:63-97 | `None` exactly on failure; otherwise the chapter's rows sorted by version, a permutation of them, strictly ascending in a well-formed store |
| Search.IsApprovedOf | search.py:11-16 | the `where` filter: the record's chapter id is the chapter's and its status is "approved" |
| Search.FirstApprovedText | search.py:10-23 | `None` exactly when no record is an approved one of the chapter; otherwise the text of the first such record |
| Search.FindFinalVersion | search.py:3-29 | `None` exactly on failure or when the chapter has no approved record; otherwise the text of its first approved record |
| Search.TakeRanked | search.py:38-42 | at most `n` hits, all drawn from the chapter's records, none for an empty chapter |
| Search.SemanticSearchVersions | search.py:31-52 | `None` exactly on failure, including a result count below one; otherwise at most that many records, all of the chapter |
| Search.SearchEmptyChapter | search.py:38-46 | a chapter without records gives an empty result, not `None` |
| UrlCache.StripScheme | utils/cache_handler.py:12 | a leading `https://` or `http://` is removed, and nothing else; a URL with neither comes back unchanged |
| UrlCache.ReplaceForbidden | utils/cache_handler.py:14 | same length; each of the nine forbidden characters becomes `_`; every other character is kept |
| UrlCache.ReplaceForbiddenConcat | utils/cache_handler.py:14 | the substitution works character by character, so it distributes over concatenation |
| UrlCache.SafeFilename | utils/cache_handler.py:6-16 | the sanitised URL cut to 200 characters, then ".txt"; at most 204 characters; no forbidden character before the extension |
| UrlCache.SchemeDoesNotMatter | utils/cache_handler.py:12 | a URL and its `http` variant map to the same file name |
| UrlCache.StripHttps | utils/cache_handler.py:12 | with `https://` in front, what follows is what gets sanitised |
| UrlCache.ReplaceSegmentSlash | utils/cache_handler.py:14 | a clean path segment followed by a slash comes out followed by an underscore |
| UrlCache.DefaultPathSanitised | utils/cache_handler.py:14 | the default URL's path sanitises segment by segment |
| UrlCache.DefaultUrlFilename | utils/cache_handler.py:9 | the documented example: the default URL maps to `en.wikisource.org_wiki_The_Gates_of_Morning_Book_1_Chapter_1.txt` |
| UrlCache.DistinctUrlsShareFile | utils/cache_handler.py:14-16 | two different URLs can map to the same cache file |
| UrlCache.Cache.constructor | utils/cache_handler.py:4 | the cache directory holds the given files |
| UrlCache.ReadText | utils/cache_handler.py:27-28 | a text-mode read: no `"\r"` is left, the text does not grow, and content without `"\r"` reads back unchanged |
| UrlCache.ReadTextStep | utils/cache_handler.py:27-28 | how a read starts: a character other than `"\r"` is kept, a leading `"\r\n"` becomes one `"\n"`, a lone `"\r"` becomes `"\n"` |
| UrlCache.ReadTextIdempotent | utils/cache_handler.py:27-28 | reading what was read changes nothing |
| UrlCache.ReadTextCrLf | utils/cache_handler.py:27-28 | a `"\r\n"` anywhere in the content reads as one `"\n"`, and the text on either side reads as it would on its own |
| UrlCache.ReadTextLoneCr | utils/cache_handler.py:27-28 | a `"\r"` not followed by `"\n"` anywhere in the content reads as `"\n"`, and the text on either side reads as it would on its own |
| UrlCache.ReadTextLineEnds | utils/cache_handler.py:27-28 | an example: `"a\r\nb"` and `"a\rb"` both read as `"a\nb"` |
| UrlCache.Cache.GetCachedContent | utils/cache_handler.py:18-29 | `None` exactly when the URL's file is absent; otherwise its contents read in text mode |
| UrlCache.Cache.SaveContentToCache | utils/cache_handler.py:31-43 | a successful save makes the URL read back the content in text mode; a failed one changes nothing; other file names are untouched |
| UrlCache.CacheRoundTrip | utils/cache_handler.py:18-43 | content saved under a URL reads back under the same URL with either scheme: unchanged when it holds no `"\r"`, newline-translated otherwise |
| Workflow.Render | agents.py:8-18 | the current text as the writer's prompt shows it; an absent text reads "None" |
| Workflow.Decide | main.py:36-49 | approve exactly on "approve" after strip and lower-case, retry exactly on "retry", anything else is that direction |
| Workflow.DecideIgnoresSurroundingSpace | main.py:36 | whitespace around the editor's answer does not change the decision |
| Workflow.DecideIgnoresCase | main.py:36 | an answer padded with whitespace decides as any answer equal to it up to case |
| Workflow.DecideApproveAnyCase | main.py:36-38 | an answer that lower-cases to "approve", padded with whitespace, approves |
| Workflow.DecideEmpty | main.py:36-49 | an empty answer is creative direction |
| Workflow.CombinedFeedback | main.py:49-51 | the direction clause in front; the concern clause after it exactly when a concern was typed |
| Workflow.NoConcernNoClause | main.py:49-51 | without a concern, the feedback holds no concern clause |
| Workflow.ConcernClausePresent | main.py:50-51 | a typed concern puts the concern clause into the feedback |
| Workflow.ConcernClauseIffGiven | main.py:33-51 | the concern clause appears exactly when the stripped reviewer input is non-empty |
| Workflow.CycleWrites | main.py:19-41 | a cycle writes only records of its chapter at the new version, holding the draft |
| Workflow.CycleState | main.py:38-55 | the version returned never decreases |
| Workflow.CycleStateVersion | main.py:38-55 | retry returns the input state; approve and refine raise the version by one; approve makes the draft the current text |
| Workflow.CycleWritesWellFormed | main.py:19-41 | a cycle keeps the store well formed |
| Workflow.CycleKeepsOtherChapters | main.py:19-41 | a cycle leaves other chapters' records unchanged |
| Workflow.CycleKeepsRecord | main.py:19-41 | a cycle keeps every record stored under another id than its version's |
| Workflow.ApproveMakesFinalVisible | main.py:38-41 | after a successful approval the chapter has a final version |
| Workflow.FirstApprovalIsFinal | main.py:38-41 | the first approval of a chapter is what `find_final_version` returns |
| Workflow.ApproveOverwritesDraft | main.py:19-41 | afterwards the version's id holds only the approved record |
| Workflow.RefinedTextNotStored | main.py:48-55 | a refining cycle stores nothing but the first draft |
| Workflow.RetriedDraftIsOverwritten | main.py:43-46 | a retried draft stays stored until the next cycle's draft replaces it |
| Workflow.FailedStartReadOverwritesOriginal | main.py:91-93 | after a failed start-up read, the first saved draft replaces the original at version 0 |
| Workflow.CycleTail | main.py:19-41 | what a cycle appends: at most one record of its version holding the draft, and nothing exactly when the draft save fails and no approval is saved |
| Workflow.CycleWritesAppend | main.py:19-41 | in a store whose versions are below the cycle's, a cycle only appends |
| Workflow.FirstApprovedOfAppend | search.py:17-23 | appending records never changes an existing first approval |
| Workflow.LaterApprovalIsShadowed | search.py:10-23 | once approved, a later approval does not change `find_final_version` |
| Workflow.LatestOfAppend | database.py:50-57 | a record appended above every version of its chapter becomes the latest |
| Workflow.LatestAfterCycle | main.py:19-55 | once the draft is saved it is the latest version, whatever the editor decided |
| Workflow.SpinWrites | main.py:19-41 | one spin writes only records of its chapter at the next version |
| Workflow.NextState | main.py:38-55 | the state after one spin: the version never drops, and stays the same exactly on retry |
| Workflow.HandleSpinCycle | main.py:16-55 | the store becomes the cycle's writes and the returned state is the cycle's state; well-formedness is kept |
| Workflow.ReadCommand | main.py:102-114 | a line reads as "exit" or "spin" exactly when it is that word after lower-casing and stripping; any other line is some other command |
| Workflow.ReadCommandAnyCase | main.py:102-108 | a word that lower-cases to "spin" or "exit", padded with whitespace, is read as that command |
| Workflow.Session | main.py:100-114 | the session's version never ends below where it started |
| Workflow.SessionWellFormed | main.py:100-114 | a session keeps the store well formed |
| Workflow.SpinKeepsOtherChapters | main.py:107-108 | one spin keeps the store well formed and other chapters unchanged |
| Workflow.SessionKeepsOtherChapters | main.py:100-114 | a session touches no other chapter |
| Workflow.SpinKeepsVersionZero | main.py:19-21 | one spin from version 0 or above saves above version 0, so the stored version 0 survives |
| Workflow.SessionKeepsVersionZero | main.py:100-114 | a session starting at version 0 or above never overwrites the stored version 0 |
| Workflow.SessionTurn | main.py:100-114 | one turn: exit stops, spin runs a cycle and continues, anything else continues |
| Workflow.StartupText | main.py:85-88 | the cache unless missing or empty, else the scraped text; halt exactly when that is empty or contains "FAILED" |
| Workflow.NoHtmlPlaceholderAccepted | main.py:85-86 | the scraper's no-content placeholder passes the halt test |
| Workflow.StartupStatePresent | main.py:91-93 | after version 0 is saved, the latest version is present and at least 0 |
| Workflow.StartupStateFresh | main.py:91-93 | in a chapter with no versions, the session starts from the original at version 0 |
| Workflow.RunCommand | main.py:102-114 | exit exactly on "exit"; "spin" runs the cycle; anything else changes nothing |
| Workflow.LoopStep | main.py:100-108 | after a turn that does not exit, the rest of the session is that of the remaining input |
| Workflow.LoopExit | main.py:104-106 | "exit" ends the session where it stands |
| Workflow.CommandLoop | main.py:100-114 | the loop's final store and state are those of the session on its input |
| Workflow.RunSession | main.py:82-114 | halts with nothing changed exactly when the start-up text is rejected; otherwise caches it, saves version 0, starts from the latest version and runs the session |

## Left out

- Console I/O: every `print`, the banners and the pandas rendering of the version table (database.py:86-94) are not modelled. `input` is a string carried by each loop step, and running out of input ends the session.
- The search submenu `handle_search` (main.py:57-78) is not modelled. Like "inspect" and unknown commands, it changes neither store nor state. `find_final_version`, `semantic_search_versions` and `inspect_all_versions` are modelled on their own.
- The language-model calls of agents.py are arbitrary string functions. Their failure placeholders are ordinary strings, which main.py saves like any draft. The critique is computed but only printed, so nothing depends on it.
- The scraper (Playwright and BeautifulSoup) is not modelled. Its result is a parameter, and it is consulted only when the cache has nothing.
- The embedding model, cosine distances and the ordering of `collection.query` are not modelled. Search.SemanticSearchVersions takes the ranking as an oracle, so it does not state which records are most similar.
- The ChromaDB client and collection set-up (database.py:6-15) is not modelled; `get` returns records in the collection's sequence order.
- VersionStore.Collection.constructor: a reopened collection holds whatever earlier runs stored. It is promised well formed only when it is empty, because the writes of earlier runs are outside the model. The operations that need it well formed require `Valid()`, and `VersionStore.UpsertWellFormed` shows that `save_version` alone keeps it so.
- Common.Strip and Common.Lower handle ASCII whitespace and ASCII letters only, not all of Unicode.
- VersionStore.SortByVersion: an insertion sort. It places rows of equal version in its own order, which need not be the order pandas' `sort_values` uses. Equal versions cannot occur in a well-formed store.
- A cache read that raises (an unreadable file or bad encoding) is not modelled. Writes are modelled as on POSIX, where text mode writes `"\n"` unchanged; the `"\r\n"` a Windows write would produce is not modelled. Neither is the directory creation of `save_content_to_cache`. Cache file names are keys of a map, not paths joined to `cache/`.
- Each store, search or cache operation either succeeds fully or fails with nothing written. A partial write is not modelled.
- config.py's environment variables are not modelled. The default URL appears only as UrlCache.DefaultUrl.

=== FILE: common.dfy ===
/** Python string behaviour the rest of the model relies on: `sub in s`,
    `str.strip()`, `str.lower()`, and the decimal rendering an f-string gives
    an `int`, plus the Option type that stands for Python's `None`. */
module Common {

  datatype Option<+T> = None | Some(value: T)

  /** `sub` occurs in `s` starting at position `i`. */
  predicate MatchAt(s: string, sub: string, i: int)
  {
    0 <= i && i + |sub| <= |s| && s[i..i + |sub|] == sub
  }

  lemma MatchShift(s: string, sub: string, j: int)
    requires s != [] && MatchAt(s[1..], sub, j)
    ensures MatchAt(s, sub, j + 1)
  {
    assert s[j + 1..j + 1 + |sub|] == s[1..][j..j + |sub|];
  }

  lemma MatchUnshift(s: string, sub: string, i: int)
    requires i >= 1 && MatchAt(s, sub, i)
    ensures MatchAt(s[1..], sub, i - 1)
  {
    assert s[1..][i - 1..i - 1 + |sub|] == s[i..i + |sub|];
  }

  /** Python's `sub in s`. */
  function Contains(s: string, sub: string): (b: bool)
    ensures b <==> exists i :: MatchAt(s, sub, i)
    decreases |s|
  {
    if |sub| <= |s| && s[..|sub|] == sub then
      assert MatchAt(s, sub, 0);
      true
    else if s == [] then
      false
    else
      var rest := Contains(s[1..], sub);
      assert rest ==> exists i :: MatchAt(s, sub, i) by {
        if rest {
          var j :| MatchAt(s[1..], sub, j);
          MatchShift(s, sub, j);
        }
      }
      assert (exists i :: MatchAt(s, sub, i)) ==> rest by {
        if i :| MatchAt(s, sub, i) {
          assert i != 0;
          MatchUnshift(s, sub, i);
        }
      }
      rest
  }

  /** A string cannot contain `sub` when one of the characters of `sub` does
      not occur in it. */
  lemma MissingCharNoMatch(s: string, sub: string, k: nat)
    requires k < |sub| && sub[k] !in s
    ensures !Contains(s, sub)
  {
    forall i ensures !MatchAt(s, sub, i) {
      if 0 <= i && i + |sub| <= |s| {
        assert s[i + k] in s;
        assert s[i..i + |sub|][k] == s[i + k];
      }
    }
  }

  /** The characters `str.strip()` removes, restricted to ASCII. */
  predicate IsSpace(c: char)
  {
    c == ' ' || c == '\t' || c == '\n' || c == '\r' || c == '\U{0B}' || c == '\U{0C}'
    || c == '\U{1C}' || c == '\U{1D}' || c == '\U{1E}' || c == '\U{1F}'
  }

  function TrimStart(s: string): (r: string)
    ensures |r| <= |s| && r == s[|s| - |r|..]
    ensures r == [] || !IsSpace(r[0])
    ensures forall i :: 0 <= i < |s| - |r| ==> IsSpace(s[i])
  {
    if s != [] && IsSpace(s[0]) then
      var r := TrimStart(s[1..]);
      assert s[1..][|s| - 1 - |r|..] == s[|s| - |r|..];
      assert forall i :: 1 <= i < |s| - |r| ==> s[i] == s[1..][i - 1];
      r
    else
      s
  }

  function TrimEnd(s: string): (r: string)
    ensures |r| <= |s| && r == s[..|r|]
    ensures r == [] || !IsSpace(r[|r| - 1])
    ensures forall i :: |r| <= i < |s| ==> IsSpace(s[i])
  {
    if s != [] && IsSpace(s[|s| - 1]) then
      var r := TrimEnd(s[..|s| - 1]);
      assert s[..|s| - 1][..|r|] == s[..|r|];
      assert forall i :: |r| <= i < |s| - 1 ==> s[i] == s[..|s| - 1][i];
      r
    else
      s
  }

  /** `r` is the slice of `s` starting at `a`, and everything around it is whitespace. */
  ghost predicate StrippedAt(s: string, r: string, a: int)
  {
    0 <= a <= |s| - |r| && r == s[a..a + |r|]
    && (forall i :: 0 <= i < a ==> IsSpace(s[i]))
    && (forall i :: a + |r| <= i < |s| ==> IsSpace(s[i]))
  }

  /** A prefix of whitespace dropped from `s`, then a suffix of whitespace
      dropped from what is left, leaves a slice with whitespace around it. */
  lemma TrimmedStrippedAt(s: string, t: string, r: string)
    requires |t| <= |s| && t == s[|s| - |t|..] && forall i :: 0 <= i < |s| - |t| ==> IsSpace(s[i])
    requires |r| <= |t| && r == t[..|r|] && forall i :: |r| <= i < |t| ==> IsSpace(t[i])
    ensures StrippedAt(s, r, |s| - |t|)
  {
    var a := |s| - |t|;
    assert r == s[a..a + |r|];
    forall i | a + |r| <= i < |s| ensures IsSpace(s[i]) {
      assert s[i] == t[i - a];
    }
  }

  /** Python's `s.strip()`: the slice of `s` left after dropping leading and
      trailing whitespace. */
  function Strip(s: string): (r: string)
    ensures r == [] || (!IsSpace(r[0]) && !IsSpace(r[|r| - 1]))
    ensures exists a :: StrippedAt(s, r, a)
  {
    var t := TrimStart(s);
    var r := TrimEnd(t);
    TrimmedStrippedAt(s, t, r);
    assert r != [] ==> r[0] == t[0];
    r
  }

  /** Leading whitespace in front of a non-space character is all that
      `TrimStart` drops. */
  lemma {:induction false} TrimStartSpaces(pre: string, rest: string)
    requires forall i :: 0 <= i < |pre| ==> IsSpace(pre[i])
    requires rest != [] && !IsSpace(rest[0])
    ensures TrimStart(pre + rest) == rest
  {
    if pre == [] {
      assert pre + rest == rest;
    } else {
      assert (pre + rest)[1..] == pre[1..] + rest;
      TrimStartSpaces(pre[1..], rest);
    }
  }

  /** Trailing whitespace after a non-space character is all that `TrimEnd`
      drops. */
  lemma {:induction false} TrimEndSpaces(rest: string, post: string)
    requires forall i :: 0 <= i < |post| ==> IsSpace(post[i])
    requires rest != [] && !IsSpace(rest[|rest| - 1])
    ensures TrimEnd(rest + post) == rest
  {
    if post == [] {
      assert rest + post == rest;
    } else {
      var s := rest + post;
      assert s[|s| - 1] == post[|post| - 1];
      assert s[..|s| - 1] == rest + post[..|post| - 1];
      TrimEndSpaces(rest, post[..|post| - 1]);
    }
  }

  /** `strip()` removes exactly the whitespace around a word. */
  lemma StripSurrounded(pre: string, word: string, post: string)
    requires forall i :: 0 <= i < |pre| ==> IsSpace(pre[i])
    requires forall i :: 0 <= i < |post| ==> IsSpace(post[i])
    requires word != [] && !IsSpace(word[0]) && !IsSpace(word[|word| - 1])
    ensures Strip(pre + word + post) == word
  {
    assert pre + word + post == pre + (word + post);
    assert (word + post)[0] == word[0];
    TrimStartSpaces(pre, word + post);
    TrimEndSpaces(word, post);
  }

  predicate IsUpper(c: char)
  {
    'A' <= c <= 'Z'
  }

  function LowerChar(c: char): char
  {
    if IsUpper(c) then (c as int + 32) as char else c
  }

  /** Python's `s.lower()`, restricted to ASCII letters. */
  function Lower(s: string): (r: string)
    ensures |r| == |s|
    ensures forall i :: 0 <= i < |r| ==> !IsUpper(r[i])
    ensures forall i :: 0 <= i < |s| && !IsUpper(s[i]) ==> r[i] == s[i]
    ensures forall i :: 0 <= i < |s| && IsUpper(s[i]) ==> r[i] == (s[i] as int + 32) as char
  {
    seq(|s|, i requires 0 <= i < |s| => LowerChar(s[i]))
  }

  /** Lower-casing distributes over concatenation. */
  lemma LowerAppend(a: string, b: string)
    ensures Lower(a + b) == Lower(a) + Lower(b)
  {
    var l, r := Lower(a + b), Lower(a) + Lower(b);
    forall i | 0 <= i < |l| ensures l[i] == r[i] {
      if i < |a| {
        assert (a + b)[i] == a[i];
      } else {
        assert (a + b)[i] == b[i - |a|];
      }
    }
  }

  /** Whitespace is not a letter: lower-casing leaves it alone. */
  lemma LowerKeepsSpaces(s: string)
    requires forall i :: 0 <= i < |s| ==> IsSpace(s[i])
    ensures Lower(s) == s
  {
  }

  /** A word whose lower-case form starts and ends with a letter starts and
      ends with no whitespace itself. */
  lemma LowerWordEnds(w: string)
    requires Lower(w) != [] && 'a' <= Lower(w)[0] <= 'z' && 'a' <= Lower(w)[|w| - 1] <= 'z'
    ensures w != [] && !IsSpace(w[0]) && !IsSpace(w[|w| - 1])
  {
  }

  function DigitChar(d: nat): (c: char)
    requires d < 10
  {
    ('0' as int + d) as char
  }

  predicate IsDigit(c: char)
  {
    '0' <= c <= '9'
  }

  /** The decimal digits of `n`, most significant first, without leading zeros. */
  function NatToString(n: nat): (r: string)
    ensures |r| >= 1
    ensures forall i :: 0 <= i < |r| ==> IsDigit(r[i])
    ensures (|r| == 1) == (n < 10)
    ensures r[0] == '0' ==> n == 0
  {
    if n < 10 then [DigitChar(n)] else NatToString(n / 10) + [DigitChar(n % 10)]
  }

  /** How an f-string renders a Python `int`. */
  function IntToString(n: int): (r: string)
    ensures |r| >= 1
    ensures forall i :: 0 <= i < |r| ==> IsDigit(r[i]) || r[i] == '-'
    ensures forall i :: 1 <= i < |r| ==> IsDigit(r[i])
    ensures (r[0] == '-') == (n < 0)
    ensures r[0] == '0' ==> r == "0"
    ensures n < 0 ==> |r| >= 2 && r[1] != '0'
  {
    if n < 0 then "-" + NatToString(-n) else NatToString(n)
  }

  /** The number a string of decimal digits denotes, most significant first. */
  function DigitsValue(s: string): (v: nat)
    requires forall i :: 0 <= i < |s| ==> IsDigit(s[i])
  {
    if s == [] then 0
    else
      assert IsDigit(s[|s| - 1]);
      DigitsValue(s[..|s| - 1]) * 10 + (s[|s| - 1] as int - '0' as int)
  }

  /** The digits `NatToString` writes denote `n`. */
  lemma {:induction false} NatToStringValue(n: nat)
    ensures DigitsValue(NatToString(n)) == n
  {
    if n >= 10 {
      NatToStringValue(n / 10);
      var s := NatToString(n);
      assert s[..|s| - 1] == NatToString(n / 10);
    }
  }

  /** The rendering of an int is its decimal value: the digits alone for
      `n >= 0`, a '-' followed by the digits of `-n` otherwise. */
  lemma IntToStringValue(n: int)
    ensures n >= 0 ==> DigitsValue(IntToString(n)) == n
    ensures n < 0 ==> IntToString(n)[0] == '-' && DigitsValue(IntToString(n)[1..]) == -n
  {
    if n >= 0 {
      NatToStringValue(n);
    } else {
      NatToStringValue(-n);
      assert IntToString(n)[1..] == NatToString(-n);
    }
  }

  lemma {:induction false} NatToStringInjective(a: nat, b: nat)
    requires NatToString(a) == NatToString(b)
    ensures a == b
  {
    var s := NatToString(a);
    if a >= 10 && b >= 10 {
      assert NatToString(a / 10) == s[..|s| - 1] == NatToString(b / 10);
      NatToStringInjective(a / 10, b / 10);
      assert DigitChar(a % 10) == s[|s| - 1] == DigitChar(b % 10);
    }
  }

  /** Distinct integers render to distinct decimal strings. */
  lemma IntToStringInjective(a: int, b: int)
    requires IntToString(a) == IntToString(b)
    ensures a == b
  {
    var s := IntToString(a);
    assert (a < 0) == (s[0] == '-') == (b < 0);
    if a < 0 {
      assert NatToString(-a) == s[1..] == NatToString(-b);
      NatToStringInjective(-a, -b);
    } else {
      NatToStringInjective(a, b);
    }
  }
}

=== FILE: search.dfy ===
/** The read-only queries of search.py, as functions of the collection's
    records. Every failure of the collection is caught and turns into `None`. */
module Search {
  import opened Common
  import opened VersionStore

  /** `rec` is an approved version of `chapterId`: what the metadata filter
      of `find_final_version` matches. */
  predicate IsApprovedOf(rec: Record, chapterId: string)
  {
    rec.chapterId == chapterId && rec.status == StatusApproved
  }

  /** The text of the first matching record in iteration order: `get` with
      `limit=1`, then document 0. */
  function FirstApprovedText(rs: seq<Record>, chapterId: string): (r: Option<string>)
    ensures r.None? <==> forall i :: 0 <= i < |rs| ==> !IsApprovedOf(rs[i], chapterId)
    ensures r.Some? ==> exists i :: 0 <= i < |rs| && IsApprovedOf(rs[i], chapterId) && rs[i].text == r.value
                          && forall j :: 0 <= j < i ==> !IsApprovedOf(rs[j], chapterId)
  {
    if rs == [] then None
    else if IsApprovedOf(rs[0], chapterId) then Some(rs[0].text)
    else
      var r := FirstApprovedText(rs[1..], chapterId);
      assert r.Some? ==> exists i :: 0 <= i < |rs| && IsApprovedOf(rs[i], chapterId) && rs[i].text == r.value
                           && forall j :: 0 <= j < i ==> !IsApprovedOf(rs[j], chapterId) by {
        if r.Some? {
          var k :| 0 <= k < |rs[1..]| && IsApprovedOf(rs[1..][k], chapterId) && rs[1..][k].text == r.value
                   && forall j :: 0 <= j < k ==> !IsApprovedOf(rs[1..][j], chapterId);
          assert forall j :: 0 < j < k + 1 ==> rs[j] == rs[1..][j - 1];
        }
      }
      r
  }

  /** `find_final_version`: the text of the first approved record of the
      chapter, `None` when there is none or the `get` fails. */
  function FindFinalVersion(rs: seq<Record>, chapterId: string, fails: bool): (r: Option<string>)
    ensures r.None? <==> fails || forall i :: 0 <= i < |rs| ==> !IsApprovedOf(rs[i], chapterId)
    ensures r.Some? ==> exists i :: 0 <= i < |rs| && IsApprovedOf(rs[i], chapterId) && rs[i].text == r.value
                          && forall j :: 0 <= j < i ==> !IsApprovedOf(rs[j], chapterId)
  {
    if fails then None else FirstApprovedText(rs, chapterId)
  }

  /** The result count `semantic_search_versions` asks for by default. */
  const DefaultResultCount := 3

  /** The similarity engine: given the query text and the chapter's records,
      the positions of those records from most to least similar. Embeddings and
      cosine distances are not modelled. */
  type Ranking = (string, seq<Record>) -> seq<int>

  /** The records at the first `n` usable positions of `order`. */
  function TakeRanked(crs: seq<Record>, order: seq<int>, n: nat): (hits: seq<Record>)
    ensures |hits| <= n
    ensures forall x :: x in hits ==> x in crs
    ensures |hits| <= |order|
    ensures crs == [] ==> hits == []
  {
    if n == 0 || order == [] then []
    else if 0 <= order[0] < |crs| then [crs[order[0]]] + TakeRanked(crs, order[1..], n - 1)
    else TakeRanked(crs, order[1..], n)
  }

  /** `semantic_search_versions`: at most `nResults` records of the chapter,
      in the engine's order; `None` when the query fails, which includes the
      collection rejecting a result count below one. */
  function SemanticSearchVersions(rs: seq<Record>, chapterId: string, queryText: string, rank: Ranking,
                                  fails: bool, nResults: int := DefaultResultCount): (r: Option<seq<Record>>)
    ensures r.None? <==> fails || nResults < 1
    ensures r.Some? ==> |r.value| <= nResults
    ensures r.Some? ==> forall x :: x in r.value ==> x in rs && x.chapterId == chapterId
  {
    if fails || nResults < 1 then None
    else
      var crs := ChapterRecords(rs, chapterId);
      Some(TakeRanked(crs, rank(queryText, crs), nResults))
  }

  /** A chapter without records yields an empty result, not a failure. */
  lemma SearchEmptyChapter(rs: seq<Record>, chapterId: string, queryText: string, rank: Ranking)
    requires forall i :: 0 <= i < |rs| ==> rs[i].chapterId != chapterId
    ensures SemanticSearchVersions(rs, chapterId, queryText, rank, false) == Some([])
  {
  }
}

=== FILE: url_cache.dfy ===
/** The page cache of utils/cache_handler.py: a URL is turned into a file
    name, and the cache directory is a map from file names to contents. */
module UrlCache {
  import opened Common

  /** The longest file-name stem kept before ".txt" is appended. */
  const MaxStemLength := 200

  /** The URL the configuration falls back to when none is set. */
  const DefaultUrl := "https://en.wikisource.org/wiki/The_Gates_of_Morning/Book_1/Chapter_1"

  /** The characters of the class `[\\/:*?"<>|]` that are not allowed in a file name. */
  predicate IsForbidden(c: char)
  {
    c == '\\' || c == '/' || c == ':' || c == '*' || c == '?' || c == '"' || c == '<' || c == '>' || c == '|'
  }

  predicate HasPrefix(s: string, p: string)
  {
    |p| <= |s| && s[..|p|] == p
  }

  /** The substitution of `^https?://` by nothing: one leading scheme is
      removed, and nothing else. */
  function StripScheme(url: string): (s: string)
    ensures |s| <= |url| && s == url[|url| - |s|..]
    ensures url[..|url| - |s|] in {"", "http://", "https://"}
    ensures !HasPrefix(url, "http://") && !HasPrefix(url, "https://") ==> s == url
    ensures HasPrefix(url, "https://") ==> s == url[8..]
    ensures HasPrefix(url, "http://") ==> s == url[7..]
  {
    if HasPrefix(url, "https://") then
      assert url[4] == 's';
      url[8..]
    else if HasPrefix(url, "http://") then url[7..]
    else url
  }

  /** Every forbidden character becomes `_`; all others are kept in place. */
  function ReplaceForbidden(s: string): (r: string)
    ensures |r| == |s|
    ensures forall i :: 0 <= i < |r| ==> !IsForbidden(r[i])
    ensures forall i :: 0 <= i < |s| && !IsForbidden(s[i]) ==> r[i] == s[i]
    ensures forall i :: 0 <= i < |s| && IsForbidden(s[i]) ==> r[i] == '_'
  {
    seq(|s|, i requires 0 <= i < |s| => if IsForbidden(s[i]) then '_' else s[i])
  }

  /** `get_safe_filename_from_url`: the sanitised URL, cut to its first 200
      characters, with ".txt" appended. */
  function SafeFilename(url: string): (name: string)
    ensures 4 <= |name| <= MaxStemLength + 4
    ensures name[|name| - 4..] == ".txt"
    ensures forall i :: 0 <= i < |name| - 4 ==> !IsForbidden(name[i])
    ensures var safe := ReplaceForbidden(StripScheme(url));
      name[..|name| - 4] == safe[..if |safe| < MaxStemLength then |safe| else MaxStemLength]
  {
    CappedTxt(ReplaceForbidden(StripScheme(url)))
  }

  /** The first `MaxStemLength` characters of `safe`, with ".txt" appended. */
  function CappedTxt(safe: string): (name: string)
    ensures 4 <= |name| <= MaxStemLength + 4
    ensures name[|name| - 4..] == ".txt"
    ensures name[..|name| - 4] == safe[..if |safe| < MaxStemLength then |safe| else MaxStemLength]
    ensures (forall i :: 0 <= i < |safe| ==> !IsForbidden(safe[i])) ==>
      forall i :: 0 <= i < |name| - 4 ==> !IsForbidden(name[i])
  {
    var stem := safe[..if |safe| < MaxStemLength then |safe| else MaxStemLength];
    var name := stem + ".txt";
    assert name[..|name| - 4] == stem && name[|name| - 4..] == ".txt";
    assert forall i :: 0 <= i < |stem| ==> name[i] == stem[i] == safe[i];
    name
  }

  /** A URL and its `http` variant share one cache file. */
  lemma SchemeDoesNotMatter(rest: string)
    ensures SafeFilename("http://" + rest) == SafeFilename("https://" + rest)
  {
    var plain, secure := "http://" + rest, "https://" + rest;
    assert plain[4] == ':';
    assert !HasPrefix(plain, "https://");
    assert HasPrefix(plain, "http://") && plain[7..] == rest;
    assert HasPrefix(secure, "https://") && secure[8..] == rest;
  }

  lemma ReplaceForbiddenConcat(a: string, b: string)
    ensures ReplaceForbidden(a + b) == ReplaceForbidden(a) + ReplaceForbidden(b)
  {
    var l, r := ReplaceForbidden(a + b), ReplaceForbidden(a) + ReplaceForbidden(b);
    forall i | 0 <= i < |l| ensures l[i] == r[i] {
      if i < |a| {
        assert (a + b)[i] == a[i];
      } else {
        assert (a + b)[i] == b[i - |a|];
      }
    }
  }

  /** With the `https://` scheme, what follows it is what gets sanitised. */
  lemma StripHttps(rest: string)
    ensures StripScheme("https://" + rest) == rest
  {
    assert ("https://" + rest)[..8] == "https://";
  }

  /** A segment free of forbidden characters followed by a slash comes out
      followed by an underscore. */
  lemma ReplaceSegmentSlash(segment: string)
    requires forall i :: 0 <= i < |segment| ==> !IsForbidden(segment[i])
    ensures ReplaceForbidden(segment + "/") == segment + "_"
  {
    ReplaceForbiddenConcat(segment, "/");
    assert ReplaceForbidden("/") == "_";
    assert ReplaceForbidden(segment) == segment;
  }

  /** The default URL split at its last slash. This and the splits below
      each take one long literal apart, one lemma per split, so that each
      equality of literals is proved on its own. */
  lemma DefaultUrlPeel1()
    ensures DefaultUrl == "https://en.wikisource.org/wiki/The_Gates_of_Morning/Book_1/" + "Chapter_1"
  {
  }

  lemma DefaultUrlPeel2()
    ensures "https://en.wikisource.org/wiki/The_Gates_of_Morning/Book_1/"
         == "https://en.wikisource.org/wiki/The_Gates_of_Morning/" + "Book_1/"
  {
  }

  lemma DefaultUrlPeel3()
    ensures "https://en.wikisource.org/wiki/The_Gates_of_Morning/"
         == "https://en.wikisource.org/wiki/" + "The_Gates_of_Morning/"
  {
  }

  lemma DefaultUrlPeel4()
    ensures "https://en.wikisource.org/wiki/" == "https://en.wikisource.org/" + "wiki/"
  {
  }

  lemma DefaultUrlPeel5()
    ensures "https://en.wikisource.org/" == "https://" + "en.wikisource.org/"
  {
  }

  lemma FrontAssoc(a: string, b: string, c: string, d: string, e: string, f: string)
    ensures a + b + c + d + e + f == a + (b + c + d + e + f)
  {
  }

  /** The default URL is `https://` followed by its five path segments. */
  lemma DefaultUrlSegments()
    ensures DefaultUrl == "https://" + ("en.wikisource.org/" + "wiki/" + "The_Gates_of_Morning/" + "Book_1/" + "Chapter_1")
  {
    DefaultUrlPeel1();
    DefaultUrlPeel2();
    DefaultUrlPeel3();
    DefaultUrlPeel4();
    DefaultUrlPeel5();
    FrontAssoc("https://", "en.wikisource.org/", "wiki/", "The_Gates_of_Morning/", "Book_1/", "Chapter_1");
  }

  /** One segment of the default URL's path with its slash, sanitised. */
  lemma SegmentSlash(withSlash: string, withUnderscore: string, segment: string)
    requires withSlash == segment + "/" && withUnderscore == segment + "_"
    requires forall i :: 0 <= i < |segment| ==> !IsForbidden(segment[i])
    ensures ReplaceForbidden(withSlash) == withUnderscore
  {
    ReplaceSegmentSlash(segment);
  }

  /** The sanitised path of the default URL, segment by segment. */
  lemma DefaultPathSanitised()
    ensures ReplaceForbidden("en.wikisource.org/" + "wiki/" + "The_Gates_of_Morning/" + "Book_1/" + "Chapter_1")
         == "en.wikisource.org_" + "wiki_" + "The_Gates_of_Morning_" + "Book_1_" + "Chapter_1"
  {
    SegmentSlash("en.wikisource.org/", "en.wikisource.org_", "en.wikisource.org");
    SegmentSlash("wiki/", "wiki_", "wiki");
    SegmentSlash("The_Gates_of_Morning/", "The_Gates_of_Morning_", "The_Gates_of_Morning");
    SegmentSlash("Book_1/", "Book_1_", "Book_1");
    assert ReplaceForbidden("Chapter_1") == "Chapter_1";
    ReplaceForbiddenConcat("en.wikisource.org/", "wiki/");
    ReplaceForbiddenConcat("en.wikisource.org/" + "wiki/", "The_Gates_of_Morning/");
    ReplaceForbiddenConcat("en.wikisource.org/" + "wiki/" + "The_Gates_of_Morning/", "Book_1/");
    ReplaceForbiddenConcat("en.wikisource.org/" + "wiki/" + "The_Gates_of_Morning/" + "Book_1/", "Chapter_1");
  }

  /** The default URL's file name split before its extension. */
  lemma DefaultFilenamePeel1()
    ensures "en.wikisource.org_wiki_The_Gates_of_Morning_Book_1_Chapter_1.txt"
         == "en.wikisource.org_wiki_The_Gates_of_Morning_Book_1_Chapter_1" + ".txt"
  {
  }

  lemma DefaultFilenamePeel2()
    ensures "en.wikisource.org_wiki_The_Gates_of_Morning_Book_1_Chapter_1"
         == "en.wikisource.org_wiki_The_Gates_of_Morning_Book_1_" + "Chapter_1"
  {
  }

  lemma DefaultFilenamePeel3()
    ensures "en.wikisource.org_wiki_The_Gates_of_Morning_Book_1_"
         == "en.wikisource.org_wiki_The_Gates_of_Morning_" + "Book_1_"
  {
  }

  lemma DefaultFilenamePeel4()
    ensures "en.wikisource.org_wiki_The_Gates_of_Morning_" == "en.wikisource.org_wiki_" + "The_Gates_of_Morning_"
  {
  }

  /** The example of the function's documentation, on the default URL. */
  lemma DefaultUrlFilename()
    ensures SafeFilename(DefaultUrl) == "en.wikisource.org_wiki_The_Gates_of_Morning_Book_1_Chapter_1.txt"
  {
    var path := "en.wikisource.org/" + "wiki/" + "The_Gates_of_Morning/" + "Book_1/" + "Chapter_1";
    var safe := "en.wikisource.org_" + "wiki_" + "The_Gates_of_Morning_" + "Book_1_" + "Chapter_1";
    DefaultUrlSegments();
    StripHttps(path);
    DefaultPathSanitised();
    assert |safe| < MaxStemLength;
    assert SafeFilename(DefaultUrl) == safe + ".txt";
    DefaultFilenamePeel1();
    DefaultFilenamePeel2();
    DefaultFilenamePeel3();
    DefaultFilenamePeel4();
    assert "en.wikisource.org_wiki_" == "en.wikisource.org_" + "wiki_";
  }

  /** Distinct URLs can share a cache file: a forbidden character and an
      underscore in the same place are not told apart. */
  lemma DistinctUrlsShareFile()
    ensures "a:b" != "a_b" && SafeFilename("a:b") == SafeFilename("a_b")
  {
    assert ReplaceForbidden(StripScheme("a:b")) == "a_b";
    assert ReplaceForbidden(StripScheme("a_b")) == "a_b";
  }

  /** A text-mode read with universal newlines: "\r\n" and a lone "\r" each
      become "\n", and every other character is kept in order. */
  function ReadText(raw: string): (text: string)
    ensures |text| <= |raw|
    ensures forall i :: 0 <= i < |text| ==> text[i] != '\r'
    ensures (forall i :: 0 <= i < |raw| ==> raw[i] != '\r') ==> text == raw
  {
    if raw == [] then []
    else if raw[0] == '\r' && 2 <= |raw| && raw[1] == '\n' then "\n" + ReadText(raw[2..])
    else if raw[0] == '\r' then "\n" + ReadText(raw[1..])
    else
      assert forall i :: 0 <= i < |raw[1..]| ==> raw[1..][i] == raw[i + 1];
      [raw[0]] + ReadText(raw[1..])
  }

  /** Reading back what was read is a no-op: the read leaves no "\r". */
  lemma ReadTextIdempotent(raw: string)
    ensures ReadText(ReadText(raw)) == ReadText(raw)
  {
  }

  /** How a read proceeds past the first character of a non-empty string. */
  lemma ReadTextStep(raw: string)
    requires raw != []
    ensures raw[0] != '\r' ==> ReadText(raw) == [raw[0]] + ReadText(raw[1..])
    ensures raw[0] == '\r' && 2 <= |raw| && raw[1] == '\n' ==> ReadText(raw) == "\n" + ReadText(raw[2..])
    ensures raw[0] == '\r' && (|raw| == 1 || raw[1] != '\n') ==> ReadText(raw) == "\n" + ReadText(raw[1..])
  {
  }

  /** How many characters the first step of a read consumes: two for a
      leading "\r\n", one otherwise. */
  function StepLength(a: string): (k: nat)
    requires a != []
    ensures 1 <= k <= |a|
  {
    if a[0] == '\r' && 2 <= |a| && a[1] == '\n' then 2 else 1
  }

  /** What the first step of a read produces: "\n" for a line end, the
      character itself otherwise. */
  function StepOutput(a: string): string
    requires a != []
  {
    if a[0] == '\r' then "\n" else [a[0]]
  }

  /** The first step of reading `a` is the same whatever follows `a`, as
      long as what follows does not complete a lone "\r" into "\r\n". */
  lemma ReadTextPrefixStep(a: string, c: string)
    requires a != []
    requires a == "\r" ==> c == [] || c[0] != '\n'
    ensures ReadText(a) == StepOutput(a) + ReadText(a[StepLength(a)..])
    ensures ReadText(a + c) == StepOutput(a) + ReadText(a[StepLength(a)..] + c)
  {
    if a[0] != '\r' {
      PlainPrefixStep(a, c);
    } else if 2 <= |a| && a[1] == '\n' {
      CrLfPrefixStep(a, c);
    } else {
      LoneCrPrefixStep(a, c);
    }
  }

  lemma PlainPrefixStep(a: string, c: string)
    requires a != [] && a[0] != '\r'
    ensures ReadText(a) == [a[0]] + ReadText(a[1..])
    ensures ReadText(a + c) == [a[0]] + ReadText(a[1..] + c)
  {
    var raw := a + c;
    assert raw[0] == a[0] && raw[1..] == a[1..] + c;
    ReadTextPlainStep(a);
    ReadTextPlainStep(raw);
  }

  lemma CrLfPrefixStep(a: string, c: string)
    requires 2 <= |a| && a[0] == '\r' && a[1] == '\n'
    ensures ReadText(a) == "\n" + ReadText(a[2..])
    ensures ReadText(a + c) == "\n" + ReadText(a[2..] + c)
  {
    var raw := a + c;
    assert raw[0] == '\r' && raw[1] == '\n' && raw[2..] == a[2..] + c;
    ReadTextCrLfStep(a);
    ReadTextCrLfStep(raw);
  }

  lemma LoneCrPrefixStep(a: string, c: string)
    requires a != [] && a[0] == '\r' && (|a| == 1 || a[1] != '\n')
    requires |a| == 1 ==> c == [] || c[0] != '\n'
    ensures ReadText(a) == "\n" + ReadText(a[1..])
    ensures ReadText(a + c) == "\n" + ReadText(a[1..] + c)
  {
    var raw := a + c;
    assert raw[0] == '\r' && raw[1..] == a[1..] + c;
    assert |raw| == 1 || raw[1] != '\n' by {
      if |a| == 1 {
        assert 2 <= |raw| ==> raw[1] == c[0];
      } else {
        assert raw[1] == a[1];
      }
    }
    ReadTextLoneCrStep(a);
    ReadTextLoneCrStep(raw);
  }

  lemma ReadTextPlainStep(raw: string)
    requires raw != [] && raw[0] != '\r'
    ensures ReadText(raw) == [raw[0]] + ReadText(raw[1..])
  {
  }

  lemma ReadTextCrLfStep(raw: string)
    requires 2 <= |raw| && raw[0] == '\r' && raw[1] == '\n'
    ensures ReadText(raw) == "\n" + ReadText(raw[2..])
  {
  }

  lemma ReadTextLoneCrStep(raw: string)
    requires raw != [] && raw[0] == '\r' && (|raw| == 1 || raw[1] != '\n')
    ensures ReadText(raw) == "\n" + ReadText(raw[1..])
  {
  }

  /** A line end `term` that reads as "\n" before `b` reads so after any
      text too: a "\r" that starts it cannot join what comes before. */
  lemma {:induction false} ReadTextLineEnd(a: string, c: string, t: string)
    requires c != [] && c[0] == '\r'
    requires ReadText(c) == "\n" + t
    ensures ReadText(a + c) == ReadText(a) + "\n" + t
    decreases |a|
  {
    if a == [] {
      ReadTextLineEndAlone(c, t);
    } else {
      ReadTextLineEnd(a[StepLength(a)..], c, t);
      ReadTextAfterStep(a, c, t);
    }
  }

  lemma ReadTextLineEndAlone(c: string, t: string)
    requires ReadText(c) == "\n" + t
    ensures ReadText([] + c) == ReadText([]) + "\n" + t
  {
    var empty: string := [];
    assert empty + c == c;
    assert ReadText(empty) == empty;
    assert empty + "\n" + t == "\n" + t;
  }

  /** Once the rest of `a` followed by `c` reads as the rest's reading, "\n"
      and `t`, all of `a` followed by `c` reads as `a`'s reading, "\n" and `t`. */
  lemma ReadTextAfterStep(a: string, c: string, t: string)
    requires a != []
    requires a == "\r" ==> c == [] || c[0] != '\n'
    requires ReadText(a[StepLength(a)..] + c) == ReadText(a[StepLength(a)..]) + "\n" + t
    ensures ReadText(a + c) == ReadText(a) + "\n" + t
  {
    var rest := ReadText(a[StepLength(a)..]);
    ReadTextPrefixStep(a, c);
    ConcatAssoc(StepOutput(a), rest, t);
  }

  lemma ConcatAssoc(lead: string, x: string, t: string)
    ensures lead + (x + "\n" + t) == (lead + x) + "\n" + t
  {
  }

  /** A Windows line end "\r\n" reads as one "\n", wherever it stands. */
  lemma ReadTextCrLf(a: string, b: string)
    ensures ReadText(a + "\r\n" + b) == ReadText(a) + "\n" + ReadText(b)
  {
    var c := "\r\n" + b;
    assert a + "\r\n" + b == a + c;
    assert c[0] == '\r' && c[1] == '\n' && c[2..] == b;
    ReadTextCrLfStep(c);
    ReadTextLineEnd(a, c, ReadText(b));
  }

  /** An old Mac line end, a "\r" not followed by "\n", reads as "\n",
      wherever it stands. */
  lemma ReadTextLoneCr(a: string, b: string)
    requires b == [] || b[0] != '\n'
    ensures ReadText(a + "\r" + b) == ReadText(a) + "\n" + ReadText(b)
  {
    var c := "\r" + b;
    assert a + "\r" + b == a + c;
    assert c[0] == '\r' && c[1..] == b && (2 <= |c| ==> c[1] == b[0]);
    ReadTextLoneCrStep(c);
    ReadTextLineEnd(a, c, ReadText(b));
  }

  /** Windows and old Mac line ends both read as "\n". */
  lemma ReadTextLineEnds()
    ensures ReadText("a\r\nb") == "a\nb" && ReadText("a\rb") == "a\nb"
  {
    assert "a\r\nb"[1..] == "\r\nb" && "\r\nb"[2..] == "b";
    assert "a\rb"[1..] == "\rb" && "\rb"[1..] == "b";
  }

  /** The cache directory. */
  class Cache {
    /** The files of the directory, by file name, as written. */
    var files: map<string, string>

    constructor (files: map<string, string>)
      ensures this.files == files
    {
      this.files := files;
    }

    /** `get_cached_content`: the contents of the URL's file read in text
        mode, `None` when the file does not exist. */
    function GetCachedContent(url: string): (content: Option<string>)
      reads this
      ensures content.None? <==> SafeFilename(url) !in files
      ensures content.Some? ==> content.value == ReadText(files[SafeFilename(url)])
    {
      var name := SafeFilename(url);
      if name in files then Some(ReadText(files[name])) else None
    }

    /** `save_content_to_cache`: writes the URL's file; a failing write
        (`fails`) is reported and leaves the directory as it was. */
    method SaveContentToCache(url: string, content: string, fails: bool)
      modifies this
      ensures files == if fails then old(files) else old(files)[SafeFilename(url) := content]
      ensures !fails ==> GetCachedContent(url) == Some(ReadText(content))
      ensures forall other :: SafeFilename(other) != SafeFilename(url) ==>
                GetCachedContent(other) == old(GetCachedContent(other))
    {
      if !fails {
        files := files[SafeFilename(url) := content];
      }
    }
  }

  /** What a successful save writes is what a later lookup of the same URL,
      or of its other scheme, reads back: the content itself when it has no
      "\r", its newline-translated form otherwise. */
  lemma CacheRoundTrip(files: map<string, string>, rest: string, content: string)
    ensures var stored := files[SafeFilename("https://" + rest) := content];
      SafeFilename("http://" + rest) in stored && ReadText(stored[SafeFilename("http://" + rest)]) == ReadText(content)
    ensures (forall i :: 0 <= i < |content| ==> content[i] != '\r') ==> ReadText(content) == content
  {
    SchemeDoesNotMatter(rest);
  }
}

=== FILE: version_store.dfy ===
/** The chapter-version store of database.py: a collection of documents keyed
    by id, each carrying its chapter id, version number and status as metadata.
    The embedding attached to each document is not modelled; the collection is
    the sequence of its records in the order `get` returns them. */
module VersionStore {
  import opened Common

  /** Status values the workflow writes. */
  const StatusOriginal := "original"
  const StatusAiDraft := "ai_draft"
  const StatusApproved := "approved"

  /** One stored document: its id, its metadata and its text. */
  datatype Record = Record(id: string, chapterId: string, version: int, status: string, text: string)

  /** The id `save_version` stores a version under: the chapter id, "_v",
      then the version in decimal. */
  function DocId(chapterId: string, version: int): string
  {
    chapterId + "_v" + IntToString(version)
  }

  /** The record `save_version(chapterId, version, status, text)` writes. */
  function NewRecord(chapterId: string, version: int, status: string, text: string): (rec: Record)
    ensures rec.id == DocId(chapterId, version)
    ensures rec.chapterId == chapterId && rec.version == version
    ensures rec.status == status && rec.text == text
  {
    Record(DocId(chapterId, version), chapterId, version, status, text)
  }

  /** The characters after the last underscore of `s` (all of `s` when it
      has none). */
  function AfterLastUnderscore(s: string): string
  {
    if s == [] then []
    else if s[|s| - 1] == '_' then []
    else AfterLastUnderscore(s[..|s| - 1]) + [s[|s| - 1]]
  }

  lemma {:induction false} AfterLastUnderscoreOf(c: string, t: string)
    requires forall i :: 0 <= i < |t| ==> t[i] != '_'
    ensures AfterLastUnderscore(c + "_" + t) == t
  {
    var s := c + "_" + t;
    if t != [] {
      var t' := t[..|t| - 1];
      assert s[..|s| - 1] == c + "_" + t';
      AfterLastUnderscoreOf(c, t');
      assert t == t' + [t[|t| - 1]];
    } else {
      assert s[|s| - 1] == '_';
    }
  }

  /** A document id splits at its last underscore into the chapter id and
      "v" followed by the version. */
  lemma DocIdSplit(c: string, v: int)
    ensures DocId(c, v) == c + "_" + ("v" + IntToString(v))
    ensures AfterLastUnderscore(DocId(c, v)) == "v" + IntToString(v)
  {
    var d := IntToString(v);
    assert c + "_v" + d == c + "_" + ("v" + d);
    assert forall i :: 0 <= i < |"v" + d| ==> ("v" + d)[i] != '_' by {
      forall i | 0 <= i < |"v" + d| ensures ("v" + d)[i] != '_' {
        if i > 0 {
          assert ("v" + d)[i] == d[i - 1];
        }
      }
    }
    AfterLastUnderscoreOf(c, "v" + d);
  }

  /** Distinct (chapter id, version) pairs get distinct document ids, so each
      version of a chapter has an id of its own. */
  lemma DocIdInjective(c1: string, v1: int, c2: string, v2: int)
    requires DocId(c1, v1) == DocId(c2, v2)
    ensures c1 == c2 && v1 == v2
  {
    var d1, d2 := IntToString(v1), IntToString(v2);
    DocIdSplit(c1, v1);
    DocIdSplit(c2, v2);
    assert "v" + d1 == "v" + d2;
    assert d1 == ("v" + d1)[1..] && d2 == ("v" + d2)[1..];
    IntToStringInjective(v1, v2);
    var id := DocId(c1, v1);
    assert c1 == id[..|c1|] && c2 == id[..|c2|];
  }

  /** The shape every collection written only by `save_version` has: each id
      is derived from its record's metadata, and no id occurs twice. */
  ghost predicate WellFormed(rs: seq<Record>)
  {
    (forall i :: 0 <= i < |rs| ==> rs[i].id == DocId(rs[i].chapterId, rs[i].version))
    && (forall i, j :: 0 <= i < j < |rs| ==> rs[i].id != rs[j].id)
  }

  /** The position of the document with the given id, if any. */
  function IndexOfId(rs: seq<Record>, id: string): (k: Option<nat>)
    ensures k.Some? ==> k.value < |rs| && rs[k.value].id == id
    ensures k.None? ==> forall i :: 0 <= i < |rs| ==> rs[i].id != id
  {
    if rs == [] then None
    else if rs[0].id == id then Some(0)
    else match IndexOfId(rs[1..], id)
      case None => None
      case Some(k) => Some(k + 1)
  }

  /** The collection's `upsert` of one document: the document whose id matches
      is replaced in place, otherwise the new one is added at the end. */
  function Upsert(rs: seq<Record>, rec: Record): (r: seq<Record>)
    ensures rec in r
    ensures forall x :: x in r ==> x == rec || x in rs
    ensures (exists i :: 0 <= i < |rs| && rs[i].id == rec.id) ==> |r| == |rs|
    ensures (forall i :: 0 <= i < |rs| ==> rs[i].id != rec.id) ==> r == rs + [rec]
    ensures |rs| <= |r| && forall i :: 0 <= i < |rs| && rs[i].id != rec.id ==> r[i] == rs[i]
  {
    match IndexOfId(rs, rec.id)
    case Some(k) =>
      assert rs[k := rec][k] == rec;
      rs[k := rec]
    case None => rs + [rec]
  }

  /** Upserting a record whose id is derived from its metadata keeps the
      collection well formed, and afterwards it is the only record with its id. */
  lemma UpsertWellFormed(rs: seq<Record>, rec: Record)
    requires WellFormed(rs)
    requires rec.id == DocId(rec.chapterId, rec.version)
    ensures WellFormed(Upsert(rs, rec))
    ensures forall x :: x in Upsert(rs, rec) && x.id == rec.id ==> x == rec
  {
    match IndexOfId(rs, rec.id)
    case Some(k) =>
      ReplaceWellFormed(rs, k, rec);
    case None =>
      AppendWellFormed(rs, rec);
  }

  /** The replacing case of the upsert. */
  lemma ReplaceWellFormed(rs: seq<Record>, k: nat, rec: Record)
    requires WellFormed(rs) && k < |rs| && rs[k].id == rec.id
    requires rec.id == DocId(rec.chapterId, rec.version)
    ensures WellFormed(rs[k := rec])
    ensures forall x :: x in rs[k := rec] && x.id == rec.id ==> x == rec
  {
    var r := rs[k := rec];
    forall i | 0 <= i < |r| ensures r[i].id == rs[i].id {
    }
    forall i | 0 <= i < |r| ensures r[i].id == DocId(r[i].chapterId, r[i].version) {
    }
  }

  /** The appending case of the upsert. */
  lemma AppendWellFormed(rs: seq<Record>, rec: Record)
    requires WellFormed(rs) && forall i :: 0 <= i < |rs| ==> rs[i].id != rec.id
    requires rec.id == DocId(rec.chapterId, rec.version)
    ensures WellFormed(rs + [rec])
    ensures forall x :: x in rs + [rec] && x.id == rec.id ==> x == rec
  {
  }

  /** `get(where={"chapter_id": chapterId})`: the chapter's records, in
      iteration order. */
  function ChapterRecords(rs: seq<Record>, chapterId: string): (crs: seq<Record>)
    ensures |crs| <= |rs|
    ensures forall x :: x in crs ==> x in rs && x.chapterId == chapterId
    ensures forall i :: 0 <= i < |rs| && rs[i].chapterId == chapterId ==> rs[i] in crs
    ensures crs == [] <==> forall i :: 0 <= i < |rs| ==> rs[i].chapterId != chapterId
  {
    if rs == [] then []
    else if rs[0].chapterId == chapterId then [rs[0]] + ChapterRecords(rs[1..], chapterId)
    else ChapterRecords(rs[1..], chapterId)
  }

  lemma {:induction false} ChapterRecordsAppend(a: seq<Record>, b: seq<Record>, chapterId: string)
    ensures ChapterRecords(a + b, chapterId) == ChapterRecords(a, chapterId) + ChapterRecords(b, chapterId)
  {
    if a == [] {
      assert a + b == b;
    } else {
      assert (a + b)[0] == a[0] && (a + b)[1..] == a[1..] + b;
      ChapterRecordsAppend(a[1..], b, chapterId);
    }
  }

  lemma {:induction false} ChapterRecordsUpdateOther(rs: seq<Record>, k: nat, rec: Record, chapterId: string)
    requires k < |rs| && rs[k].chapterId != chapterId && rec.chapterId != chapterId
    ensures ChapterRecords(rs[k := rec], chapterId) == ChapterRecords(rs, chapterId)
  {
    if k > 0 {
      assert rs[k := rec][1..] == rs[1..][k - 1 := rec];
      ChapterRecordsUpdateOther(rs[1..], k - 1, rec, chapterId);
    } else {
      assert rs[k := rec][1..] == rs[1..];
    }
  }

  /** A record in front of a well-formed sequence that lacks its id. */
  lemma ConsWellFormed(x: Record, tail: seq<Record>)
    requires WellFormed(tail)
    requires x.id == DocId(x.chapterId, x.version)
    requires forall y :: y in tail ==> y.id != x.id
    ensures WellFormed([x] + tail)
  {
    var r := [x] + tail;
    forall i, j | 0 <= i < j < |r| ensures r[i].id != r[j].id {
      assert r[j] == tail[j - 1] && r[j] in tail;
      if i > 0 {
        assert r[i] == tail[i - 1];
      }
    }
  }

  /** Filtering a well-formed collection by chapter keeps it well formed. */
  lemma {:induction false} ChapterRecordsWellFormed(rs: seq<Record>, chapterId: string)
    requires WellFormed(rs)
    ensures WellFormed(ChapterRecords(rs, chapterId))
  {
    if rs != [] {
      assert WellFormed(rs[1..]);
      ChapterRecordsWellFormed(rs[1..], chapterId);
      var tail := ChapterRecords(rs[1..], chapterId);
      if rs[0].chapterId == chapterId {
        assert forall y :: y in tail ==> y.id != rs[0].id by {
          forall y | y in tail ensures y.id != rs[0].id {
            var j :| 0 <= j < |rs[1..]| && rs[1..][j] == y;
            assert rs[j + 1] == y;
          }
        }
        ConsWellFormed(rs[0], tail);
      }
    }
  }

  /** In a well-formed collection the records of one chapter carry pairwise
      distinct versions. */
  lemma ChapterVersionsDistinct(rs: seq<Record>, chapterId: string)
    requires WellFormed(rs)
    ensures forall i, j :: 0 <= i < j < |ChapterRecords(rs, chapterId)| ==>
      ChapterRecords(rs, chapterId)[i].version != ChapterRecords(rs, chapterId)[j].version
  {
    var crs := ChapterRecords(rs, chapterId);
    ChapterRecordsWellFormed(rs, chapterId);
    forall i, j | 0 <= i < j < |crs| ensures crs[i].version != crs[j].version {
      assert crs[i] in crs && crs[j] in crs;
      assert crs[i].id == DocId(chapterId, crs[i].version);
      assert crs[j].id == DocId(chapterId, crs[j].version);
    }
  }

  /** Writing a record of another chapter never changes what `get` returns
      for this chapter. */
  lemma UpsertOtherChapter(rs: seq<Record>, rec: Record, chapterId: string)
    requires WellFormed(rs)
    requires rec.id == DocId(rec.chapterId, rec.version)
    requires rec.chapterId != chapterId
    ensures ChapterRecords(Upsert(rs, rec), chapterId) == ChapterRecords(rs, chapterId)
  {
    match IndexOfId(rs, rec.id)
    case Some(k) =>
      DocIdInjective(rs[k].chapterId, rs[k].version, rec.chapterId, rec.version);
      ChapterRecordsUpdateOther(rs, k, rec, chapterId);
    case None =>
      ChapterRecordsAppend(rs, [rec], chapterId);
  }

  /** The loop of `get_latest_version_info` from a given point on: the first
      record seen with a strictly larger version replaces the current best. */
  function ScanLatest(rs: seq<Record>, latestDoc: string, latestVersion: int): (r: (string, int))
    ensures r.1 >= latestVersion
    ensures r.1 == latestVersion ==> r.0 == latestDoc
  {
    if rs == [] then (latestDoc, latestVersion)
    else if rs[0].version > latestVersion then ScanLatest(rs[1..], rs[0].text, rs[0].version)
    else ScanLatest(rs[1..], latestDoc, latestVersion)
  }

  /** `get_latest_version_info`: `(None, -1)` when the chapter has no
      records, otherwise the scan over them from `("", -1)`. */
  function LatestVersionInfo(rs: seq<Record>, chapterId: string): (r: (Option<string>, int))
    ensures r.0 == None <==> ChapterRecords(rs, chapterId) == []
    ensures r.0 == None ==> r.1 == -1
    ensures r.1 >= -1
  {
    var crs := ChapterRecords(rs, chapterId);
    if crs == [] then (None, -1)
    else
      var scanned := ScanLatest(crs, "", -1);
      (Some(scanned.0), scanned.1)
  }

  /** `holder` is the first position of `rs` whose version is `v`, and
      every earlier record has a smaller version. */
  ghost predicate FirstHolder(rs: seq<Record>, holder: int, v: int)
  {
    0 <= holder < |rs| && rs[holder].version == v
    && forall j :: 0 <= j < holder ==> rs[j].version < v
  }

  lemma {:induction false} ScanLatestSpec(rs: seq<Record>, latestDoc: string, latestVersion: int)
    ensures var r := ScanLatest(rs, latestDoc, latestVersion);
      r.1 >= latestVersion
      && (forall i :: 0 <= i < |rs| ==> rs[i].version <= r.1)
      && (r == (latestDoc, latestVersion)
          || (r.1 > latestVersion && exists i :: FirstHolder(rs, i, r.1) && rs[i].text == r.0))
  {
    if rs != [] {
      var r := ScanLatest(rs, latestDoc, latestVersion);
      if rs[0].version > latestVersion {
        ScanLatestSpec(rs[1..], rs[0].text, rs[0].version);
        if r == (rs[0].text, rs[0].version) {
          assert FirstHolder(rs, 0, r.1);
        } else {
          var i :| FirstHolder(rs[1..], i, r.1) && rs[1..][i].text == r.0;
          assert FirstHolder(rs, i + 1, r.1);
        }
      } else {
        ScanLatestSpec(rs[1..], latestDoc, latestVersion);
        if r != (latestDoc, latestVersion) {
          var i :| FirstHolder(rs[1..], i, r.1) && rs[1..][i].text == r.0;
          assert FirstHolder(rs, i + 1, r.1);
        }
      }
    }
  }

  /** What `get_latest_version_info` returns: `(None, -1)` exactly when the
      chapter has no records; otherwise the largest version among them (at
      least -1) with the text of the first record holding it, or `""` when
      every version is -1 or below. */
  lemma LatestIsMaximum(rs: seq<Record>, chapterId: string)
    ensures LatestVersionInfo(rs, chapterId).0 == None <==> forall i :: 0 <= i < |rs| ==> rs[i].chapterId != chapterId
    ensures LatestVersionInfo(rs, chapterId).0 == None ==> LatestVersionInfo(rs, chapterId).1 == -1
    ensures LatestVersionInfo(rs, chapterId).1 >= -1
    ensures forall x :: x in ChapterRecords(rs, chapterId) ==> x.version <= LatestVersionInfo(rs, chapterId).1
    ensures LatestVersionInfo(rs, chapterId).1 >= 0 ==>
              exists i :: FirstHolder(ChapterRecords(rs, chapterId), i, LatestVersionInfo(rs, chapterId).1)
                && LatestVersionInfo(rs, chapterId).0 == Some(ChapterRecords(rs, chapterId)[i].text)
    ensures LatestVersionInfo(rs, chapterId).0 != None && LatestVersionInfo(rs, chapterId).1 == -1 ==>
              LatestVersionInfo(rs, chapterId).0 == Some("")
  {
    var crs := ChapterRecords(rs, chapterId);
    ScanLatestSpec(crs, "", -1);
    if crs != [] {
      assert crs[0] in rs;
    }
  }

  lemma {:induction false} ScanLatestAppend(a: seq<Record>, b: seq<Record>, latestDoc: string, latestVersion: int)
    ensures var mid := ScanLatest(a, latestDoc, latestVersion);
      ScanLatest(a + b, latestDoc, latestVersion) == ScanLatest(b, mid.0, mid.1)
  {
    if a == [] {
      assert a + b == b;
    } else {
      assert (a + b)[0] == a[0] && (a + b)[1..] == a[1..] + b;
      if a[0].version > latestVersion {
        ScanLatestAppend(a[1..], b, a[0].text, a[0].version);
      } else {
        ScanLatestAppend(a[1..], b, latestDoc, latestVersion);
      }
    }
  }

  /** Saving a version above every stored version of the chapter makes it
      the one `get_latest_version_info` reports, with its text. */
  lemma SaveThenLatest(rs: seq<Record>, chapterId: string, version: int, status: string, text: string)
    requires WellFormed(rs)
    requires version >= 0
    requires forall i :: 0 <= i < |rs| && rs[i].chapterId == chapterId ==> rs[i].version < version
    ensures LatestVersionInfo(Upsert(rs, NewRecord(chapterId, version, status, text)), chapterId) == (Some(text), version)
  {
    var rec := NewRecord(chapterId, version, status, text);
    forall i | 0 <= i < |rs| ensures rs[i].id != rec.id {
      if rs[i].id == rec.id {
        DocIdInjective(rs[i].chapterId, rs[i].version, chapterId, version);
      }
    }
    assert Upsert(rs, rec) == rs + [rec];
    ChapterRecordsAppend(rs, [rec], chapterId);
    var crs := ChapterRecords(rs, chapterId);
    assert ChapterRecords([rec], chapterId) == [rec];
    ScanLatestAppend(crs, [rec], "", -1);
    ScanLatestSpec(crs, "", -1);
    var mid := ScanLatest(crs, "", -1);
    assert mid.1 < version by {
      if mid.1 != -1 {
        var i :| FirstHolder(crs, i, mid.1);
        assert crs[i] in rs;
      }
    }
  }

  /** Saving a record of another chapter never changes what
      `get_latest_version_info` reports for this one. */
  lemma LatestIgnoresOtherChapters(rs: seq<Record>, rec: Record, chapterId: string)
    requires WellFormed(rs)
    requires rec.id == DocId(rec.chapterId, rec.version)
    requires rec.chapterId != chapterId
    ensures LatestVersionInfo(Upsert(rs, rec), chapterId) == LatestVersionInfo(rs, chapterId)
  {
    UpsertOtherChapter(rs, rec, chapterId);
  }

  /** A row of the table `inspect_all_versions` displays. */
  datatype Row = Row(id: string, version: int, status: string, snippet: string)

  /** The displayed snippet: the first 100 characters of the text, then "...". */
  function Snippet(doc: string): (s: string)
    ensures |s| == (if |doc| < 100 then |doc| else 100) + 3
    ensures s[..|s| - 3] <= doc && s[|s| - 3..] == "..."
  {
    doc[..if |doc| < 100 then |doc| else 100] + "..."
  }

  function RowOf(rec: Record): Row
  {
    Row(rec.id, rec.version, rec.status, Snippet(rec.text))
  }

  function RowsOf(rs: seq<Record>): (rows: seq<Row>)
    ensures |rows| == |rs| && forall i :: 0 <= i < |rs| ==> rows[i] == RowOf(rs[i])
  {
    seq(|rs|, i requires 0 <= i < |rs| => RowOf(rs[i]))
  }

  ghost predicate SortedByVersion(rows: seq<Row>)
  {
    forall i, j :: 0 <= i < j < |rows| ==> rows[i].version <= rows[j].version
  }

  ghost predicate StrictlyAscending(rows: seq<Row>)
  {
    forall i, j :: 0 <= i < j < |rows| ==> rows[i].version < rows[j].version
  }

  ghost predicate DistinctVersions(rows: seq<Row>)
  {
    forall i, j :: 0 <= i < j < |rows| ==> rows[i].version != rows[j].version
  }

  /** Putting a row in front of sorted rows with no smaller version keeps
      them sorted. */
  lemma ConsSorted(x: Row, rows: seq<Row>)
    requires SortedByVersion(rows)
    requires forall y :: y in rows ==> x.version <= y.version
    ensures SortedByVersion([x] + rows)
  {
    var r := [x] + rows;
    forall i, j | 0 <= i < j < |r| ensures r[i].version <= r[j].version {
      assert r[j] == rows[j - 1] && r[j] in rows;
      if i > 0 {
        assert r[i] == rows[i - 1];
      }
    }
  }

  function InsertByVersion(x: Row, rows: seq<Row>): (r: seq<Row>)
    requires SortedByVersion(rows)
    ensures SortedByVersion(r)
    ensures forall y :: y in r ==> y == x || y in rows
    ensures multiset(r) == multiset(rows) + multiset{x}
  {
    if rows == [] || x.version <= rows[0].version then
      forall y | y in rows ensures x.version <= y.version {
        var k :| 0 <= k < |rows| && rows[k] == y;
        assert k == 0 || rows[0].version <= rows[k].version;
      }
      ConsSorted(x, rows);
      [x] + rows
    else
      var rest := InsertByVersion(x, rows[1..]);
      assert rows == [rows[0]] + rows[1..];
      forall y | y in rest ensures rows[0].version <= y.version {
        if y != x {
          var k :| 0 <= k < |rows[1..]| && rows[1..][k] == y;
          assert rows[k + 1] == y;
        }
      }
      ConsSorted(rows[0], rest);
      [rows[0]] + rest
  }

  /** The table sort `df.sort_values(by="Version")`, as an insertion sort:
      ascending by version and a permutation of its input. */
  function SortByVersion(rows: seq<Row>): (r: seq<Row>)
    ensures SortedByVersion(r)
    ensures multiset(r) == multiset(rows)
  {
    if rows == [] then []
    else
      assert rows == [rows[0]] + rows[1..];
      InsertByVersion(rows[0], SortByVersion(rows[1..]))
  }

  /** Putting a row in front of strictly ascending rows with larger versions
      keeps them strictly ascending. */
  lemma ConsStrict(x: Row, rows: seq<Row>)
    requires StrictlyAscending(rows)
    requires forall y :: y in rows ==> x.version < y.version
    ensures StrictlyAscending([x] + rows)
  {
    var r := [x] + rows;
    forall i, j | 0 <= i < j < |r| ensures r[i].version < r[j].version {
      assert r[j] == rows[j - 1] && r[j] in rows;
      if i > 0 {
        assert r[i] == rows[i - 1];
      }
    }
  }

  lemma {:induction false} InsertByVersionStrict(x: Row, rows: seq<Row>)
    requires StrictlyAscending(rows)
    requires forall y :: y in rows ==> y.version != x.version
    ensures StrictlyAscending(InsertByVersion(x, rows))
  {
    if rows == [] || x.version <= rows[0].version {
      assert forall y :: y in rows ==> x.version < y.version by {
        forall y | y in rows ensures x.version < y.version {
          var k :| 0 <= k < |rows| && rows[k] == y;
          assert k == 0 || rows[0].version < rows[k].version;
        }
      }
      ConsStrict(x, rows);
    } else {
      InsertByVersionStrict(x, rows[1..]);
      var rest := InsertByVersion(x, rows[1..]);
      assert forall y :: y in rest ==> rows[0].version < y.version by {
        forall y | y in rest ensures rows[0].version < y.version {
          assert y in multiset(rest);
          assert y == x || y in multiset(rows[1..]);
        }
      }
      ConsStrict(rows[0], rest);
    }
  }

  /** Sorting rows whose versions are pairwise distinct yields strictly
      ascending versions. */
  lemma {:induction false} SortByVersionStrict(rows: seq<Row>)
    requires DistinctVersions(rows)
    ensures StrictlyAscending(SortByVersion(rows))
  {
    if rows != [] {
      var tail := rows[1..];
      assert DistinctVersions(tail);
      SortByVersionStrict(tail);
      var sortedTail := SortByVersion(tail);
      forall y | y in sortedTail ensures y.version != rows[0].version {
        assert y in multiset(sortedTail);
        var j :| 0 <= j < |tail| && tail[j] == y;
        assert rows[j + 1] == y;
      }
      InsertByVersionStrict(rows[0], sortedTail);
    }
  }

  /** In a well-formed collection, the sorted table of a chapter lists each
      version once, in strictly ascending order. */
  lemma VersionTableStrict(rs: seq<Record>, chapterId: string)
    requires WellFormed(rs)
    ensures StrictlyAscending(SortByVersion(RowsOf(ChapterRecords(rs, chapterId))))
  {
    var crs := ChapterRecords(rs, chapterId);
    var rows := RowsOf(crs);
    ChapterVersionsDistinct(rs, chapterId);
    forall i, j | 0 <= i < j < |rows| ensures rows[i].version != rows[j].version {
      assert rows[i].version == crs[i].version && rows[j].version == crs[j].version;
    }
    SortByVersionStrict(rows);
  }

  /** The collection `database.py` keeps at module level. */
  class Collection {
    /** The stored documents, in the order `get` returns them. */
    var records: seq<Record>

    ghost predicate Valid()
      reads this
    {
      WellFormed(records)
    }

    /** `get_or_create_collection`: the collection reopened with the records
        earlier runs stored, which is empty for a fresh database. */
    constructor (stored: seq<Record>)
      ensures records == stored
      ensures stored == [] ==> Valid()
    {
      records := stored;
    }

    /** `save_version`: upsert under `DocId(chapterId, version)`. A failing
        upsert (`fails`) is reported and swallowed, leaving the store as it was. */
    method SaveVersion(chapterId: string, version: int, status: string, text: string, fails: bool)
      requires Valid()
      modifies this
      ensures Valid()
      ensures records == if fails then old(records) else Upsert(old(records), NewRecord(chapterId, version, status, text))
    {
      if !fails {
        var rec := NewRecord(chapterId, version, status, text);
        UpsertWellFormed(records, rec);
        records := Upsert(records, rec);
      }
    }

    /** `get_latest_version_info`: a failing `get` (`fails`) yields `(None, -1)`. */
    method GetLatestVersionInfo(chapterId: string, fails: bool) returns (text: Option<string>, version: int)
      ensures fails ==> text == None && version == -1
      ensures !fails ==> (text, version) == LatestVersionInfo(records, chapterId)
    {
      if fails {
        return None, -1;
      }
      var results := ChapterRecords(records, chapterId);
      if results == [] {
        return None, -1;
      }
      var latestVersion := -1;
      var latestDoc := "";
      for i := 0 to |results|
        invariant ScanLatest(results[i..], latestDoc, latestVersion) == ScanLatest(results, "", -1)
      {
        assert results[i..][1..] == results[i + 1..];
        if results[i].version > latestVersion {
          latestVersion := results[i].version;
          latestDoc := results[i].text;
        }
      }
      return Some(latestDoc), latestVersion;
    }

    /** `inspect_all_versions`: the chapter's rows sorted by version, `Some([])`
        when it has none (the "No versions found" message), `None` when the
        `get` fails. In a well-formed store the versions strictly ascend. */
    function InspectAllVersions(chapterId: string, fails: bool): (table: Option<seq<Row>>)
      reads this
      ensures table.None? <==> fails
      ensures table.Some? ==> (SortedByVersion(table.value)
        && multiset(table.value) == multiset(RowsOf(ChapterRecords(records, chapterId))))
      ensures table.Some? && Valid() ==> StrictlyAscending(table.value)
    {
      if fails then None
      else
        assert WellFormed(records) ==> StrictlyAscending(SortByVersion(RowsOf(ChapterRecords(records, chapterId)))) by {
          if WellFormed(records) {
            VersionTableStrict(records, chapterId);
          }
        }
        var rows := RowsOf(ChapterRecords(records, chapterId));
        Some(SortByVersion(rows))
    }
  }
}

=== FILE: workflow.dfy ===
/** The interactive workflow of main.py: one spin cycle (draft, review,
    human decision) and the session loop around it. Console input arrives as
    strings carried by each step; the language-model agents are opaque
    functions, also carried by each step, since two calls with the same
    prompt may answer differently. */
module Workflow {
  import opened Common
  import opened VersionStore
  import opened Search
  import opened UrlCache

  /** The chapter every version of the session is stored under. */
  const ChapterId := "gates_of_morning_ch1"

  /** The three agents of agents.py, each failure already turned into its
      placeholder text by the agent itself. */
  datatype Agents = Agents(
    spinChapter: string -> string,
    critique: (string, string) -> string,
    spinWithFeedback: (string, string) -> string)

  /** The session's current text and version number. The text is absent when
      `get_latest_version_info` found nothing or failed at start-up. */
  datatype State = State(text: Option<string>, version: int)

  /** How an f-string renders the current text: `None` becomes "None". */
  function Render(t: Option<string>): (r: string)
    ensures t.Some? ==> r == t.value
    ensures t.None? ==> r == "None"
  {
    match t
    case Some(s) => s
    case None => "None"
  }

  /** What the editor's answer asks for. */
  datatype Decision = Approve | Retry | Refine(direction: string)

  /** The editor's answer, stripped then lower-cased, read as a command;
      anything but "approve" and "retry" is creative direction. */
  function Decide(editorInput: string): (d: Decision)
    ensures d == Approve <==> Lower(Strip(editorInput)) == "approve"
    ensures d == Retry <==> Lower(Strip(editorInput)) == "retry"
    ensures d.Refine? ==> d.direction == Lower(Strip(editorInput))
  {
    var answer := Lower(Strip(editorInput));
    if answer == "approve" then Approve
    else if answer == "retry" then Retry
    else Refine(answer)
  }

  /** Two answers that read the same once stripped and lower-cased decide the same. */
  lemma DecideByAnswer(x: string, y: string)
    requires Lower(Strip(x)) == Lower(Strip(y))
    ensures Decide(x) == Decide(y)
  {
  }

  /** Whitespace around the editor's answer does not change the decision. */
  lemma DecideIgnoresSurroundingSpace(pre: string, answer: string, post: string)
    requires forall i :: 0 <= i < |pre| ==> IsSpace(pre[i])
    requires forall i :: 0 <= i < |post| ==> IsSpace(post[i])
    requires answer != [] && !IsSpace(answer[0]) && !IsSpace(answer[|answer| - 1])
    ensures Decide(pre + answer + post) == Decide(answer)
  {
    StripSurrounded(pre, answer, post);
    StripSurrounded([], answer, []);
    assert [] + answer + [] == answer;
    DecideByAnswer(pre + answer + post, answer);
  }

  /** Neither case nor the whitespace around the editor's answer changes the
      decision: a padded answer decides as any answer equal to it up to case. */
  lemma DecideIgnoresCase(pre: string, answer: string, other: string, post: string)
    requires forall i :: 0 <= i < |pre| ==> IsSpace(pre[i])
    requires forall i :: 0 <= i < |post| ==> IsSpace(post[i])
    requires answer != [] && !IsSpace(answer[0]) && !IsSpace(answer[|answer| - 1])
    requires other != [] && !IsSpace(other[0]) && !IsSpace(other[|other| - 1])
    requires Lower(answer) == Lower(other)
    ensures Decide(pre + answer + post) == Decide(other)
  {
    StripSurrounded(pre, answer, post);
    StripSurrounded([], other, []);
    assert [] + other + [] == other;
    DecideByAnswer(pre + answer + post, other);
  }

  /** An answer that reads "approve" in any case, padded with whitespace,
      approves. */
  lemma DecideApproveAnyCase(pre: string, answer: string, post: string)
    requires forall i :: 0 <= i < |pre| ==> IsSpace(pre[i])
    requires forall i :: 0 <= i < |post| ==> IsSpace(post[i])
    requires Lower(answer) == "approve"
    ensures Decide(pre + answer + post) == Approve
  {
    LowerWordEnds(answer);
    StripSurrounded(pre, answer, post);
  }

  /** An empty answer is direction, not approval. */
  lemma DecideEmpty()
    ensures Decide("") == Refine("")
  {
  }

  const DirectionHead := "Editor's creative direction: '"
  const ConcernHead := " Also, please address this meta-concern about the review: '"

  /** The feedback sent to the writer: the editor's direction, then the
      reviewer's concern when one was typed. */
  function CombinedFeedback(direction: string, concern: string): (r: string)
    ensures |DirectionHead| + |direction| + 2 <= |r|
    ensures r[..|DirectionHead|] == DirectionHead
    ensures r[|DirectionHead|..|DirectionHead| + |direction|] == direction
    ensures concern == "" <==> |r| == |DirectionHead| + |direction| + 2
    ensures concern != "" ==> |r| == |DirectionHead| + |direction| + 2 + |ConcernHead| + |concern| + 2
    ensures concern != "" ==> r[|r| - |concern| - 2..] == concern + "'."
  {
    var head := DirectionHead + direction + "'.";
    var r := if concern != "" then head + (ConcernHead + concern + "'.") else head;
    assert r[..|DirectionHead|] == DirectionHead;
    assert r[|DirectionHead|..|DirectionHead| + |direction|] == direction;
    r
  }

  /** The concern clause split at its last word; the splits below take it
      apart one word at a time, one lemma per equality of literals. */
  lemma ConcernHeadPeel1()
    ensures ConcernHead == " Also, please address this meta-concern about the" + " review: '"
  {
  }

  lemma ConcernHeadPeel2()
    ensures " Also, please address this meta-concern about the" == " Also, please address this meta-concern" + " about the"
  {
  }

  lemma ConcernHeadPeel3()
    ensures " Also, please address this meta-concern" == " Also, please address this" + " meta-concern"
  {
  }

  lemma ConcernHeadPeel4()
    ensures " Also, please address this" == " Also, please" + " address this"
  {
  }

  /** The concern clause holds an upper-case `A`. */
  lemma ConcernHeadHasUpperA()
    ensures ConcernHead[1] == 'A'
  {
    ConcernHeadPeel1();
    ConcernHeadPeel2();
    ConcernHeadPeel3();
    ConcernHeadPeel4();
    assert " Also, please" == " Also" + ", please";
    assert ConcernHead[1] == " Also, please address this meta-concern about the"[1]
        == " Also, please address this meta-concern"[1] == " Also, please address this"[1]
        == " Also, please"[1] == " Also"[1];
  }

  /** Without a concern, the feedback holds no upper-case `A` when the
      direction holds none, so it cannot hold the concern clause. */
  lemma NoConcernNoClause(direction: string)
    requires forall i :: 0 <= i < |direction| ==> !IsUpper(direction[i])
    ensures !Contains(CombinedFeedback(direction, ""), ConcernHead)
  {
    var r := CombinedFeedback(direction, "");
    assert 'A' !in DirectionHead;
    forall i | 0 <= i < |r| ensures r[i] != 'A' {
      if i < |DirectionHead| {
        assert r[i] == DirectionHead[i];
        assert DirectionHead[i] in DirectionHead;
      } else if i < |DirectionHead| + |direction| {
        assert r[i] == direction[i - |DirectionHead|];
      } else {
        assert r[i] in "'.";
      }
    }
    ConcernHeadHasUpperA();
    MissingCharNoMatch(r, ConcernHead, 1);
  }

  /** A typed concern puts the concern clause into the feedback. */
  lemma ConcernClausePresent(direction: string, concern: string)
    requires concern != ""
    ensures Contains(CombinedFeedback(direction, concern), ConcernHead)
  {
    var r := CombinedFeedback(direction, concern);
    var head := DirectionHead + direction + "'.";
    assert r == head + (ConcernHead + concern + "'.");
    assert r[|head|..|head| + |ConcernHead|] == ConcernHead;
    assert MatchAt(r, ConcernHead, |head|);
  }

  /** The concern clause appears in the feedback exactly when the reviewer
      typed a concern: the clause holds an upper-case `A`, which neither the
      fixed head nor the lower-cased direction can contain. */
  lemma ConcernClauseIffGiven(editorInput: string, reviewInput: string)
    ensures Contains(CombinedFeedback(Lower(Strip(editorInput)), Strip(reviewInput)), ConcernHead)
        <==> Strip(reviewInput) != ""
  {
    if Strip(reviewInput) == "" {
      NoConcernNoClause(Lower(Strip(editorInput)));
    } else {
      ConcernClausePresent(Lower(Strip(editorInput)), Strip(reviewInput));
    }
  }

  /** The draft `handle_spin_cycle` saves, the critique it prints and the
      refinement it may request all concern the next version `v`. What a
      cycle writes depends only on the store, `v`, the draft and the
      editor's decision. */
  function CycleWrites(rs: seq<Record>, v: int, spun: string, d: Decision,
                       draftFails: bool, approveFails: bool): (r: seq<Record>)
    ensures forall x :: x in r ==> (x in rs
              || (x.chapterId == ChapterId && x.version == v && x.text == spun && x.id == DocId(ChapterId, v)))
  {
    var afterDraft := if draftFails then rs else Upsert(rs, NewRecord(ChapterId, v, StatusAiDraft, spun));
    if d == Approve && !approveFails then
      Upsert(afterDraft, NewRecord(ChapterId, v, StatusApproved, spun))
    else
      afterDraft
  }

  /** The state `handle_spin_cycle` returns: approve keeps the draft at the
      new version; retry hands back the text and version it was given (the
      incremented number minus one); anything else keeps the new version with
      the writer's refinement of the draft as the current text. */
  function CycleState(s: State, spun: string, d: Decision, concern: string,
                      refine: (string, string) -> string): (next: State)
    ensures next.version >= s.version
  {
    match d
    case Approve => State(Some(spun), s.version + 1)
    case Retry => s
    case Refine(direction) => State(Some(refine(spun, CombinedFeedback(direction, concern))), s.version + 1)
  }

  /** What a decision does to the session: approve and refine move to the
      draft's version, retry stays exactly where it was, and approve makes
      the draft the current text. */
  lemma CycleStateVersion(s: State, spun: string, d: Decision, concern: string, refine: (string, string) -> string)
    ensures d == Retry ==> CycleState(s, spun, d, concern, refine) == s
    ensures d != Retry ==> CycleState(s, spun, d, concern, refine).version == s.version + 1
    ensures d == Approve ==> CycleState(s, spun, d, concern, refine).text == Some(spun)
  {
  }

  /** A cycle keeps the store well formed: every id derived from its chapter
      and version, and no id stored twice. */
  lemma CycleWritesWellFormed(rs: seq<Record>, v: int, spun: string, d: Decision, draftFails: bool, approveFails: bool)
    requires WellFormed(rs)
    ensures WellFormed(CycleWrites(rs, v, spun, d, draftFails, approveFails))
  {
    var draft := NewRecord(ChapterId, v, StatusAiDraft, spun);
    var afterDraft := if draftFails then rs else Upsert(rs, draft);
    assert WellFormed(afterDraft) by {
      if !draftFails {
        UpsertWellFormed(rs, draft);
      }
    }
    if d == Approve && !approveFails {
      UpsertWellFormed(afterDraft, NewRecord(ChapterId, v, StatusApproved, spun));
    }
  }

  /** A cycle leaves the records of every other chapter as they were. */
  lemma CycleKeepsOtherChapters(rs: seq<Record>, v: int, spun: string, d: Decision,
                                draftFails: bool, approveFails: bool, other: string)
    requires WellFormed(rs) && other != ChapterId
    ensures ChapterRecords(CycleWrites(rs, v, spun, d, draftFails, approveFails), other) == ChapterRecords(rs, other)
  {
    var draft := NewRecord(ChapterId, v, StatusAiDraft, spun);
    var approved := NewRecord(ChapterId, v, StatusApproved, spun);
    if draftFails {
      UpsertOtherChapter(rs, approved, other);
    } else {
      UpsertWellFormed(rs, draft);
      UpsertOtherChapter(rs, draft, other);
      UpsertOtherChapter(Upsert(rs, draft), approved, other);
    }
  }

  /** A cycle keeps every record stored under another id than its version's. */
  lemma CycleKeepsRecord(rs: seq<Record>, v: int, spun: string, d: Decision,
                         draftFails: bool, approveFails: bool, rec: Record)
    requires rec in rs && rec.id != DocId(ChapterId, v)
    ensures rec in CycleWrites(rs, v, spun, d, draftFails, approveFails)
  {
    var afterDraft := if draftFails then rs else Upsert(rs, NewRecord(ChapterId, v, StatusAiDraft, spun));
    var i :| 0 <= i < |rs| && rs[i] == rec;
    assert afterDraft[i] == rec;
    var r := CycleWrites(rs, v, spun, d, draftFails, approveFails);
    assert r[i] == rec;
  }

  /** After a successful approval the chapter has a final version. */
  lemma ApproveMakesFinalVisible(rs: seq<Record>, v: int, spun: string, draftFails: bool)
    ensures FindFinalVersion(CycleWrites(rs, v, spun, Approve, draftFails, false), ChapterId, false).Some?
  {
    var rec := NewRecord(ChapterId, v, StatusApproved, spun);
    var r := CycleWrites(rs, v, spun, Approve, draftFails, false);
    assert rec in r;
    var i :| 0 <= i < |r| && r[i] == rec;
    assert IsApprovedOf(r[i], ChapterId);
  }

  /** The first approval of a chapter is what `find_final_version` returns. */
  lemma FirstApprovalIsFinal(rs: seq<Record>, v: int, spun: string, draftFails: bool)
    requires forall i :: 0 <= i < |rs| ==> !IsApprovedOf(rs[i], ChapterId)
    ensures FindFinalVersion(CycleWrites(rs, v, spun, Approve, draftFails, false), ChapterId, false) == Some(spun)
  {
    ApproveMakesFinalVisible(rs, v, spun, draftFails);
    var r := CycleWrites(rs, v, spun, Approve, draftFails, false);
    var afterDraft := if draftFails then rs else Upsert(rs, NewRecord(ChapterId, v, StatusAiDraft, spun));
    forall x | x in afterDraft ensures !IsApprovedOf(x, ChapterId) {
      if x in rs {
        var i :| 0 <= i < |rs| && rs[i] == x;
      }
    }
    var out := FindFinalVersion(r, ChapterId, false);
    var i :| 0 <= i < |r| && IsApprovedOf(r[i], ChapterId) && r[i].text == out.value;
    assert r[i] in r;
  }

  /** The approved save overwrites the draft of the same cycle: afterwards
      the version's id holds only the approved record. */
  lemma ApproveOverwritesDraft(rs: seq<Record>, v: int, spun: string, draftFails: bool)
    requires WellFormed(rs)
    ensures forall x :: x in CycleWrites(rs, v, spun, Approve, draftFails, false) && x.id == DocId(ChapterId, v) ==>
              x == NewRecord(ChapterId, v, StatusApproved, spun)
  {
    var draft := NewRecord(ChapterId, v, StatusAiDraft, spun);
    UpsertWellFormed(rs, draft);
    var afterDraft := if draftFails then rs else Upsert(rs, draft);
    UpsertWellFormed(afterDraft, NewRecord(ChapterId, v, StatusApproved, spun));
  }

  /** A refined text is never stored: a refining cycle writes only the
      writer's first draft, as `ai_draft`. */
  lemma RefinedTextNotStored(rs: seq<Record>, v: int, spun: string, direction: string, draftFails: bool, approveFails: bool)
    ensures forall x :: x in CycleWrites(rs, v, spun, Refine(direction), draftFails, approveFails) ==>
              x in rs || x == NewRecord(ChapterId, v, StatusAiDraft, spun)
  {
  }

  /** A retried cycle leaves its draft stored, and the next cycle, which
      starts from the same state, saves its own draft under the same id,
      replacing it. */
  lemma RetriedDraftIsOverwritten(rs: seq<Record>, s: State, spun: string, concern: string,
                                  refine: (string, string) -> string, approveFails: bool,
                                  nextSpun: string, nextDecision: Decision, nextApproveFails: bool)
    requires WellFormed(rs) && spun != nextSpun
    ensures NewRecord(ChapterId, s.version + 1, StatusAiDraft, spun) in CycleWrites(rs, s.version + 1, spun, Retry, false, approveFails)
    ensures var next := CycleState(s, spun, Retry, concern, refine);
      NewRecord(ChapterId, s.version + 1, StatusAiDraft, spun)
        !in CycleWrites(CycleWrites(rs, s.version + 1, spun, Retry, false, approveFails),
                        next.version + 1, nextSpun, nextDecision, false, nextApproveFails)
  {
    var v := s.version + 1;
    var first := NewRecord(ChapterId, v, StatusAiDraft, spun);
    var r1 := CycleWrites(rs, v, spun, Retry, false, approveFails);
    UpsertWellFormed(rs, first);
    var second := NewRecord(ChapterId, v, StatusAiDraft, nextSpun);
    UpsertWellFormed(r1, second);
    var afterDraft := Upsert(r1, second);
    var approved := NewRecord(ChapterId, v, StatusApproved, nextSpun);
    UpsertWellFormed(afterDraft, approved);
    CycleStateVersion(s, spun, Retry, concern, refine);
    var r2 := CycleWrites(r1, v, nextSpun, nextDecision, false, nextApproveFails);
    forall x | x in r2 && x.id == first.id ensures x.text == nextSpun {
      if nextDecision == Approve && !nextApproveFails {
        assert x == approved;
      } else {
        assert x == second;
      }
    }
  }

  /** When the start-up read fails the session is at version -1, so its first
      saved draft takes version 0 and replaces the original text. */
  lemma FailedStartReadOverwritesOriginal(rs: seq<Record>, text: Option<string>, spun: string, d: Decision, approveFails: bool)
    requires WellFormed(rs)
    ensures var v := State(text, -1).version + 1;
      forall x :: x in CycleWrites(rs, v, spun, d, false, approveFails) && x.id == DocId(ChapterId, 0) ==>
        x.status != StatusOriginal
  {
    var draft := NewRecord(ChapterId, 0, StatusAiDraft, spun);
    UpsertWellFormed(rs, draft);
    UpsertWellFormed(Upsert(rs, draft), NewRecord(ChapterId, 0, StatusApproved, spun));
  }

  /** The records a cycle adds to a store holding no record of its version:
      the approved draft, else the saved draft, else nothing. */
  function CycleTail(v: int, spun: string, d: Decision, draftFails: bool, approveFails: bool): (tail: seq<Record>)
    ensures |tail| <= 1
    ensures forall x :: x in tail ==> x.chapterId == ChapterId && x.version == v && x.text == spun
    ensures tail == [] <==> draftFails && (d != Approve || approveFails)
  {
    if d == Approve && !approveFails then [NewRecord(ChapterId, v, StatusApproved, spun)]
    else if draftFails then []
    else [NewRecord(ChapterId, v, StatusAiDraft, spun)]
  }

  /** Saving under an id the store lacks appends; saving again under the
      same id replaces what was appended. */
  lemma UpsertTwiceFresh(rs: seq<Record>, a: Record, b: Record)
    requires a.id == b.id
    requires forall i :: 0 <= i < |rs| ==> rs[i].id != a.id
    ensures Upsert(rs, a) == rs + [a]
    ensures Upsert(rs + [a], b) == rs + [b]
  {
    var r := Upsert(rs + [a], b);
    assert (rs + [a])[|rs|].id == b.id;
    assert |r| == |rs| + 1;
    forall i | 0 <= i < |rs| ensures r[i] == rs[i] {
      assert (rs + [a])[i] == rs[i];
    }
    var m :| 0 <= m < |r| && r[m] == b;
    assert m == |rs|;
    assert r == rs + [b];
  }

  /** No stored record has the id of version `v` of the chapter when every
      stored version of the chapter is below `v`. */
  lemma NewVersionIdFree(rs: seq<Record>, v: int)
    requires WellFormed(rs)
    requires forall i :: 0 <= i < |rs| && rs[i].chapterId == ChapterId ==> rs[i].version < v
    ensures forall i :: 0 <= i < |rs| ==> rs[i].id != DocId(ChapterId, v)
  {
    forall i | 0 <= i < |rs| ensures rs[i].id != DocId(ChapterId, v) {
      if rs[i].id == DocId(ChapterId, v) {
        DocIdInjective(rs[i].chapterId, rs[i].version, ChapterId, v);
      }
    }
  }

  /** In a store whose chapter versions are all below the cycle's, a cycle
      only appends its tail after all the other records. */
  lemma CycleWritesAppend(rs: seq<Record>, v: int, spun: string, d: Decision, draftFails: bool, approveFails: bool)
    requires WellFormed(rs)
    requires forall i :: 0 <= i < |rs| && rs[i].chapterId == ChapterId ==> rs[i].version < v
    ensures CycleWrites(rs, v, spun, d, draftFails, approveFails) == rs + CycleTail(v, spun, d, draftFails, approveFails)
  {
    NewVersionIdFree(rs, v);
    var draft := NewRecord(ChapterId, v, StatusAiDraft, spun);
    var approved := NewRecord(ChapterId, v, StatusApproved, spun);
    UpsertTwiceFresh(rs, draft, approved);
    if draftFails {
      assert Upsert(rs, approved) == rs + [approved];
      assert rs + [] == rs;
    }
  }

  lemma FirstApprovedOfAppend(rs: seq<Record>, tail: seq<Record>, chapterId: string)
    requires FirstApprovedText(rs, chapterId).Some?
    ensures FirstApprovedText(rs + tail, chapterId) == FirstApprovedText(rs, chapterId)
  {
    var i :| 0 <= i < |rs| && IsApprovedOf(rs[i], chapterId) && rs[i].text == FirstApprovedText(rs, chapterId).value
             && forall j :: 0 <= j < i ==> !IsApprovedOf(rs[j], chapterId);
    var r := FirstApprovedText(rs + tail, chapterId);
    assert (rs + tail)[i] == rs[i];
    var k :| 0 <= k < |rs + tail| && IsApprovedOf((rs + tail)[k], chapterId) && (rs + tail)[k].text == r.value
             && forall j :: 0 <= j < k ==> !IsApprovedOf((rs + tail)[j], chapterId);
    forall j | 0 <= j < i ensures !IsApprovedOf((rs + tail)[j], chapterId) {
      assert (rs + tail)[j] == rs[j];
    }
    assert k == i;
  }

  /** Once a chapter has been approved, approving a later version does not
      change what `find_final_version` returns: the earlier approval comes
      first in the collection and `limit=1` keeps only it. */
  lemma LaterApprovalIsShadowed(rs: seq<Record>, v: int, spun: string, d: Decision, draftFails: bool, approveFails: bool)
    requires WellFormed(rs)
    requires forall i :: 0 <= i < |rs| && rs[i].chapterId == ChapterId ==> rs[i].version < v
    requires FindFinalVersion(rs, ChapterId, false).Some?
    ensures FindFinalVersion(CycleWrites(rs, v, spun, d, draftFails, approveFails), ChapterId, false)
         == FindFinalVersion(rs, ChapterId, false)
  {
    CycleWritesAppend(rs, v, spun, d, draftFails, approveFails);
    FirstApprovedOfAppend(rs, CycleTail(v, spun, d, draftFails, approveFails), ChapterId);
  }

  /** Appending a record above every stored version of its chapter makes it
      the one `get_latest_version_info` reports. */
  lemma LatestOfAppend(rs: seq<Record>, rec: Record)
    requires rec.version >= 0
    requires forall i :: 0 <= i < |rs| && rs[i].chapterId == rec.chapterId ==> rs[i].version < rec.version
    ensures LatestVersionInfo(rs + [rec], rec.chapterId) == (Some(rec.text), rec.version)
  {
    var c := rec.chapterId;
    ChapterRecordsAppend(rs, [rec], c);
    var crs := ChapterRecords(rs, c);
    assert ChapterRecords([rec], c) == [rec];
    ScanLatestAppend(crs, [rec], "", -1);
    ScanLatestSpec(crs, "", -1);
    var mid := ScanLatest(crs, "", -1);
    assert mid.1 < rec.version by {
      if mid.1 != -1 {
        var i :| FirstHolder(crs, i, mid.1);
        assert crs[i] in rs;
      }
    }
  }

  /** Once a cycle's draft is saved, `get_latest_version_info` reports it,
      whatever the editor decided: after a retry the discarded draft is the
      latest stored version while the session is back one version. */
  lemma LatestAfterCycle(rs: seq<Record>, v: int, spun: string, d: Decision, approveFails: bool)
    requires WellFormed(rs) && v >= 0
    requires forall i :: 0 <= i < |rs| && rs[i].chapterId == ChapterId ==> rs[i].version < v
    ensures LatestVersionInfo(CycleWrites(rs, v, spun, d, false, approveFails), ChapterId) == (Some(spun), v)
  {
    CycleWritesAppend(rs, v, spun, d, false, approveFails);
    LatestOfAppend(rs, CycleTail(v, spun, d, false, approveFails)[0]);
  }

  /** One line of console input for the main loop, the answers a spin cycle
      would read, the agents it would call, and whether its two saves fail. */
  datatype Step = Step(
    command: string,
    agents: Agents,
    reviewInput: string,
    editorInput: string,
    draftSaveFails: bool,
    approveSaveFails: bool)

  /** The draft the writer produces from the current text. */
  function Spun(s: State, step: Step): string
  {
    step.agents.spinChapter(Render(s.text))
  }

  /** The state after a spin cycle run on `step`'s input. */
  function NextState(s: State, step: Step): (next: State)
    ensures next.version >= s.version
    ensures next.version == s.version <==> Decide(step.editorInput) == Retry
  {
    CycleState(s, Spun(s, step), Decide(step.editorInput), Strip(step.reviewInput), step.agents.spinWithFeedback)
  }

  /** The store after a spin cycle run on `step`'s input. */
  function SpinWrites(rs: seq<Record>, s: State, step: Step): (r: seq<Record>)
    ensures forall x :: x in r ==> x in rs || (x.chapterId == ChapterId && x.version == s.version + 1)
  {
    CycleWrites(rs, s.version + 1, Spun(s, step), Decide(step.editorInput), step.draftSaveFails, step.approveSaveFails)
  }

  /** `handle_spin_cycle`: spin a draft from the current text and save it,
      have it critiqued, then act on the editor's answer. */
  method HandleSpinCycle(store: Collection, originalText: string, s: State, step: Step) returns (next: State)
    requires store.Valid()
    modifies store
    ensures store.Valid()
    ensures store.records == SpinWrites(old(store.records), s, step)
    ensures next == NextState(s, step)
  {
    var spun := step.agents.spinChapter(Render(s.text));
    var version := s.version + 1;
    store.SaveVersion(ChapterId, version, StatusAiDraft, spun, step.draftSaveFails);
    var review := step.agents.critique(originalText, spun);
    var concern := Strip(step.reviewInput);
    var answer := Lower(Strip(step.editorInput));
    if answer == "approve" {
      store.SaveVersion(ChapterId, version, StatusApproved, spun, step.approveSaveFails);
      next := State(Some(spun), version);
    } else if answer == "retry" {
      next := State(s.text, version - 1);
    } else {
      var feedback := CombinedFeedback(answer, concern);
      next := State(Some(step.agents.spinWithFeedback(spun, feedback)), version);
    }
  }

  /** What the main loop makes of a line of input. */
  datatype Command = Exit | Spin | Other

  /** A command line, lower-cased then stripped: "exit" and "spin" act;
      "search", "inspect" and unknown commands leave store and state alone. */
  function ReadCommand(line: string): (c: Command)
    ensures c == Exit <==> Strip(Lower(line)) == "exit"
    ensures c == Spin <==> Strip(Lower(line)) == "spin"
  {
    var command := Strip(Lower(line));
    if command == "exit" then Exit
    else if command == "spin" then Spin
    else Other
  }

  /** Commands are read without regard to case or surrounding whitespace:
      a padded word that lower-cases to "spin" or "exit" is that command. */
  lemma ReadCommandAnyCase(pre: string, word: string, post: string)
    requires forall i :: 0 <= i < |pre| ==> IsSpace(pre[i])
    requires forall i :: 0 <= i < |post| ==> IsSpace(post[i])
    requires Lower(word) == "spin" || Lower(word) == "exit"
    ensures ReadCommand(pre + word + post) == if Lower(word) == "spin" then Spin else Exit
  {
    var w := Lower(word);
    LowerKeepsSpaces(pre);
    LowerKeepsSpaces(post);
    LowerAppend(pre, word);
    LowerAppend(pre + word, post);
    StripSurrounded(pre, w, post);
  }

  /** The main loop from a given state: "exit" ends the session, "spin" runs
      a cycle, any other command changes nothing. The session also ends when
      the input runs out. */
  function Session(rs: seq<Record>, originalText: string, s: State, steps: seq<Step>): (out: (seq<Record>, State))
    ensures out.1.version >= s.version
    decreases |steps|
  {
    if steps == [] then (rs, s)
    else
      match ReadCommand(steps[0].command)
      case Exit => (rs, s)
      case Spin => Session(SpinWrites(rs, s, steps[0]), originalText, NextState(s, steps[0]), steps[1..])
      case Other => Session(rs, originalText, s, steps[1..])
  }

  /** A session keeps the store well formed. */
  lemma {:induction false} SessionWellFormed(rs: seq<Record>, originalText: string, s: State, steps: seq<Step>)
    requires WellFormed(rs)
    ensures WellFormed(Session(rs, originalText, s, steps).0)
    decreases |steps|
  {
    if steps != [] {
      var step := steps[0];
      match ReadCommand(step.command)
      case Spin =>
        CycleWritesWellFormed(rs, s.version + 1, Spun(s, step), Decide(step.editorInput),
                              step.draftSaveFails, step.approveSaveFails);
        SessionWellFormed(SpinWrites(rs, s, step), originalText, NextState(s, step), steps[1..]);
      case Other =>
        SessionWellFormed(rs, originalText, s, steps[1..]);
      case Exit =>
    }
  }

  /** One spin keeps the store well formed and touches no other chapter. */
  lemma SpinKeepsOtherChapters(rs: seq<Record>, s: State, step: Step, other: string)
    requires WellFormed(rs) && other != ChapterId
    ensures WellFormed(SpinWrites(rs, s, step))
    ensures ChapterRecords(SpinWrites(rs, s, step), other) == ChapterRecords(rs, other)
  {
    var v, spun, d := s.version + 1, Spun(s, step), Decide(step.editorInput);
    CycleKeepsOtherChapters(rs, v, spun, d, step.draftSaveFails, step.approveSaveFails, other);
    CycleWritesWellFormed(rs, v, spun, d, step.draftSaveFails, step.approveSaveFails);
  }

  /** A session touches no other chapter. */
  lemma {:induction false} SessionKeepsOtherChapters(rs: seq<Record>, originalText: string, s: State, steps: seq<Step>, other: string)
    requires WellFormed(rs) && other != ChapterId
    ensures ChapterRecords(Session(rs, originalText, s, steps).0, other) == ChapterRecords(rs, other)
    decreases |steps|
  {
    if steps != [] {
      var step := steps[0];
      match ReadCommand(step.command)
      case Spin =>
        SpinKeepsOtherChapters(rs, s, step, other);
        SessionKeepsOtherChapters(SpinWrites(rs, s, step), originalText, NextState(s, step), steps[1..], other);
      case Other =>
        SessionKeepsOtherChapters(rs, originalText, s, steps[1..], other);
      case Exit =>
    }
  }

  /** One spin from version 0 or above saves above version 0, so the stored
      version 0 survives it. */
  lemma SpinKeepsVersionZero(rs: seq<Record>, s: State, step: Step, rec: Record)
    requires s.version >= 0
    requires rec in rs && rec.id == DocId(ChapterId, 0)
    ensures rec in SpinWrites(rs, s, step) && NextState(s, step).version >= 0
  {
    var v := s.version + 1;
    assert DocId(ChapterId, v) != rec.id by {
      if DocId(ChapterId, v) == DocId(ChapterId, 0) {
        DocIdInjective(ChapterId, v, ChapterId, 0);
      }
    }
    CycleKeepsRecord(rs, v, Spun(s, step), Decide(step.editorInput), step.draftSaveFails, step.approveSaveFails, rec);
  }

  /** A session that starts at version 0 or above never overwrites the
      stored version 0: every spin saves above the current version. */
  lemma {:induction false} SessionKeepsVersionZero(rs: seq<Record>, originalText: string, s: State, steps: seq<Step>, rec: Record)
    requires s.version >= 0
    requires rec in rs && rec.id == DocId(ChapterId, 0)
    ensures rec in Session(rs, originalText, s, steps).0
    decreases |steps|
  {
    if steps != [] {
      var step := steps[0];
      match ReadCommand(step.command)
      case Spin =>
        SpinKeepsVersionZero(rs, s, step, rec);
        SessionKeepsVersionZero(SpinWrites(rs, s, step), originalText, NextState(s, step), steps[1..], rec);
      case Other =>
        SessionKeepsVersionZero(rs, originalText, s, steps[1..], rec);
      case Exit =>
    }
  }

  /** The start-up text: the cached page unless it is missing or empty, else
      the freshly scraped one; `None` (halt) when that is empty or contains
      "FAILED". */
  function StartupText(cached: Option<string>, fetched: string): (r: Option<string>)
    ensures cached.Some? && cached.value != "" && r.Some? ==> r.value == cached.value
    ensures (cached.None? || cached.value == "") && r.Some? ==> r.value == fetched
    ensures r.Some? ==> r.value != "" && !Contains(r.value, "FAILED")
    ensures r.None? ==> (cached.Some? && cached.value != "" && Contains(cached.value, "FAILED"))
                        || ((cached.None? || cached.value == "") && (fetched == "" || Contains(fetched, "FAILED")))
  {
    var text := if cached.Some? && cached.value != "" then cached.value else fetched;
    if text == "" || Contains(text, "FAILED") then None else Some(text)
  }

  /** The placeholder the scraper returns when a page yields no HTML. */
  const NoHtmlContent := "---NO_HTML_CONTENT---"

  /** The scraper's placeholder for a page without content passes the
      failure test, so it is cached and saved as the original text. */
  lemma NoHtmlPlaceholderAccepted()
    ensures StartupText(None, NoHtmlContent) == Some(NoHtmlContent)
  {
    assert 'F' !in NoHtmlContent;
    MissingCharNoMatch(NoHtmlContent, "FAILED", 0);
  }

  /** The faults start-up can meet: the cache write, the save of version 0
      and the read of the latest version each may fail and be reported. */
  datatype StartupFaults = StartupFaults(cacheWriteFails: bool, originalSaveFails: bool, latestReadFails: bool)

  /** After version 0 is saved, the latest version is present and at least
      0, whatever else the chapter held. */
  lemma StartupStatePresent(rs: seq<Record>, originalText: string)
    ensures var r := LatestVersionInfo(Upsert(rs, NewRecord(ChapterId, 0, StatusOriginal, originalText)), ChapterId);
      r.0.Some? && r.1 >= 0
  {
    var rec := NewRecord(ChapterId, 0, StatusOriginal, originalText);
    var r := Upsert(rs, rec);
    LatestIsMaximum(r, ChapterId);
    var k :| 0 <= k < |r| && r[k] == rec;
    assert rec in ChapterRecords(r, ChapterId);
  }

  /** In a chapter with no earlier versions, the session starts from the
      original text at version 0. */
  lemma StartupStateFresh(rs: seq<Record>, originalText: string)
    requires WellFormed(rs)
    requires forall i :: 0 <= i < |rs| ==> rs[i].chapterId != ChapterId
    ensures LatestVersionInfo(Upsert(rs, NewRecord(ChapterId, 0, StatusOriginal, originalText)), ChapterId) == (Some(originalText), 0)
  {
    SaveThenLatest(rs, ChapterId, 0, StatusOriginal, originalText);
  }

  /** One turn of the main loop. */
  lemma SessionTurn(rs: seq<Record>, originalText: string, s: State, steps: seq<Step>)
    requires steps != []
    ensures ReadCommand(steps[0].command) == Exit ==> Session(rs, originalText, s, steps) == (rs, s)
    ensures ReadCommand(steps[0].command) == Spin ==>
              Session(rs, originalText, s, steps)
                == Session(SpinWrites(rs, s, steps[0]), originalText, NextState(s, steps[0]), steps[1..])
    ensures ReadCommand(steps[0].command) == Other ==>
              Session(rs, originalText, s, steps) == Session(rs, originalText, s, steps[1..])
  {
  }

  /** One pass of the command loop's body: "exit" reports the end of the
      session, "spin" runs a cycle, every other command changes nothing. */
  method RunCommand(store: Collection, originalText: string, s: State, step: Step) returns (next: State, exit: bool)
    requires store.Valid()
    modifies store
    ensures store.Valid()
    ensures exit <==> ReadCommand(step.command) == Exit
    ensures ReadCommand(step.command) == Spin ==>
              store.records == SpinWrites(old(store.records), s, step) && next == NextState(s, step)
    ensures ReadCommand(step.command) != Spin ==> store.records == old(store.records) && next == s
  {
    var command := ReadCommand(step.command);
    exit := command == Exit;
    next := s;
    if command == Spin {
      next := HandleSpinCycle(store, originalText, s, step);
    }
  }

  /** One pass of the loop body, against the session: after a command other
      than "exit", what is left of the session is the rest of the input. */
  lemma LoopStep(before: seq<Record>, after: seq<Record>, originalText: string, prev: State, next: State,
                 steps: seq<Step>, i: int)
    requires 0 <= i < |steps| && ReadCommand(steps[i].command) != Exit
    requires ReadCommand(steps[i].command) == Spin ==>
               after == SpinWrites(before, prev, steps[i]) && next == NextState(prev, steps[i])
    requires ReadCommand(steps[i].command) != Spin ==> after == before && next == prev
    ensures Session(after, originalText, next, steps[i + 1..]) == Session(before, originalText, prev, steps[i..])
  {
    SessionTurn(before, originalText, prev, steps[i..]);
    assert steps[i..][0] == steps[i] && steps[i..][1..] == steps[i + 1..];
  }

  /** An "exit" ends the session where it stands. */
  lemma LoopExit(rs: seq<Record>, originalText: string, s: State, steps: seq<Step>, i: int)
    requires 0 <= i < |steps| && ReadCommand(steps[i].command) == Exit
    ensures Session(rs, originalText, s, steps[i..]) == (rs, s)
  {
    SessionTurn(rs, originalText, s, steps[i..]);
    assert steps[i..][0] == steps[i];
  }

  /** The command loop of `main`, from the start-up state on. */
  method CommandLoop(store: Collection, originalText: string, start: State, steps: seq<Step>) returns (final: State)
    requires store.Valid()
    modifies store
    ensures store.Valid()
    ensures (store.records, final) == Session(old(store.records), originalText, start, steps)
  {
    ghost var saved := store.records;
    final := start;
    var i := 0;
    while i < |steps|
      invariant 0 <= i <= |steps|
      invariant store.Valid()
      invariant Session(store.records, originalText, final, steps[i..]) == Session(saved, originalText, start, steps)
    {
      ghost var before := store.records;
      var next, exit := RunCommand(store, originalText, final, steps[i]);
      if exit {
        LoopExit(store.records, originalText, final, steps, i);
        return;
      }
      LoopStep(before, store.records, originalText, final, next, steps, i);
      final := next;
      i := i + 1;
    }
  }

  /** `main`: load the chapter (cache first, then the scraper), halt on an
      empty or failed text, refresh the cache, save version 0, start from the
      latest stored version and run the command loop. */
  method RunSession(store: Collection, cache: Cache, url: string, fetched: string,
                    faults: StartupFaults, steps: seq<Step>) returns (started: bool, final: State)
    requires store.Valid()
    modifies store, cache
    ensures store.Valid()
    ensures started <==> StartupText(old(cache.GetCachedContent(url)), fetched).Some?
    ensures !started ==> store.records == old(store.records) && cache.files == old(cache.files)
    ensures started ==>
      var text := StartupText(old(cache.GetCachedContent(url)), fetched).value;
      var saved := if faults.originalSaveFails then old(store.records)
                   else Upsert(old(store.records), NewRecord(ChapterId, 0, StatusOriginal, text));
      var latest := if faults.latestReadFails then (None, -1) else LatestVersionInfo(saved, ChapterId);
      cache.files == (if faults.cacheWriteFails then old(cache.files) else old(cache.files)[SafeFilename(url) := text])
      && (store.records, final) == Session(saved, text, State(latest.0, latest.1), steps)
  {
    var startup := StartupText(cache.GetCachedContent(url), fetched);
    if startup.None? {
      return false, State(None, -1);
    }
    var originalText := startup.value;
    cache.SaveContentToCache(url, originalText, faults.cacheWriteFails);
    store.SaveVersion(ChapterId, 0, StatusOriginal, originalText, faults.originalSaveFails);
    var text, version := store.GetLatestVersionInfo(ChapterId, faults.latestReadFails);
    final := CommandLoop(store, originalText, State(text, version), steps);
    started := true;
  }
}
